=== FILE: README.md ===
# CASCADE price-signal loop in Dafny

This project models the price-signal loop of the CASCADE smart-grid
simulation. The loop runs between an `AggregatorAgent` and the
`ProsumerAgent`s linked to it in the economic network.

On every tick the aggregator does four things:

- It sums its customers' net demand.
- It stores that sum as the predicted demand of the current time-of-day slot.
- It recomputes its price signal under one of three pricing rules: a flat
  rate, the two-tier "Economy 7" tariff, or the capped exponential curve
  estimated from Roscoe and Ault.
- At the start of each day, if the signal has changed, it assembles a
  broadcast and pushes it to every customer. The broadcast is the price
  signal rotated to begin at the current tick.

A prosumer that has a smart meter stores the broadcast in its
predicted-cost buffer. The buffer is realigned by the gap between the tick
the signal is valid from and the tick it arrives. The prosumer then answers
"the predicted price now" by reading the buffer modulo its length.

## Files and modules

- `java_lib.dfy` (module `JavaLib`) models the Java behaviour the two classes
  rely on:
  - `int` division and remainder, which truncate toward zero;
  - `System.arraycopy`, as a pure function `Copied` and a method `ArrayCopy`;
  - `Arrays.fill`, as `Filled` and `Fill`;
  - `Arrays.equals`;
  - null references;
  - the exceptions these can throw.

  An exception is a value: an operation returns `Result` or `Outcome`. Any
  state changed before the throw stays changed.
- `agent_names.dfy` (`AgentNames`) holds the naming rule that both agent
  classes repeat.
- `modular.dfy` (`Modular`) holds helper facts about `%`.
- `prosumer.dfy` (`Prosumer`) describes the stored prediction as a value,
  `Intake`. The operations on it are the pure functions `Receive` and
  `Predict`, with lemmas about them. `class ProsumerAgent` holds the fields
  of the Java class that the signal loop uses, and its methods are proved to
  change those fields exactly as the functions say.
- `pricing.dfy` (`Pricing`) holds the three pricing rules as functions from
  the old signal to the new one.
- `broadcast.dfy` (`Broadcast`) holds the broadcast assembly:
  - the intended rotation, `Window`;
  - the `System.arraycopy` sequence as written, `AsWrittenAssembly`;
  - a corrected copy sequence, `CorrectedAssembly`.
- `aggregator.dfy` (`Aggregator`) holds `class AggregatorAgent`, with its
  arrays, loops and `step`. It also holds the lemma that closes the loop:
  after a broadcast, a smart-metered customer's prediction for every later
  tick equals the aggregator's current price for that tick.

The aggregator's arrays are allocated once, in the constructor, so they are
`const` array fields whose contents change in place. The aggregator never
assigns its ID, so `agentID` stays -1.

Where the code and its own names and comments disagree, the model follows
the code and proves what the code does:

- **Economy 7 bands.** The change indices name the ticks where the price
  changes (07:30 and 23:30), and `Arrays.fill` ends its range before its
  end index. The fills `[0, m)`, `[m+1, e)` and `[e+1, len-1)`
  (AggregatorAgent.java:328-330) therefore leave slots `m`, `e` and the last
  slot at their old price. On a one-day signal with at most 48 ticks a day
  one of the fills throws: the third one from 2 ticks a day up, the second
  one below that.
- **Broadcast assembly.** The comment at AggregatorAgent.java:391-393
  describes the price signal from now on, padded out with repeating copies.
  The code's offsets give that rotation only for some lengths. One of them
  is the full length of the price signal, which is the only length `step`
  asks for. For other lengths a repeat can land in the wrong place or a copy
  can run past the end of the array.
- **Dirty flag.** The field comment at AggregatorAgent.java:87 says the flag
  is set when a new and different signal is to be sent. The flat-rate and
  Economy 7 setters compare the array with an alias of itself, so the flag
  ends true whenever the setter completes. An Economy 7 fill that throws
  stops the setter before the comparison and leaves the flag as it was.
- **Intake offsets.** For a signal that is already partly elapsed, the
  comment at ProsumerAgent.java:348-349 says to copy in the portion that is
  still valid. The code copies all `length` values into a buffer of
  `length - offset` slots and throws. For a signal valid from a later tick,
  the comment at ProsumerAgent.java:343 says to pad it with what the buffer
  held before. The code does that only when the buffer is not reallocated;
  a reallocated buffer holds zeros there. In both cases the code records
  the declared valid time, although slot 0 of the buffer stands for the
  tick of receipt, so the predictions are read off by the offset.

## Model

| member | source | states |
|---|---|---|
| JavaLib.Rem | src/uk/ac/dmu/iesd/cascade/context/ProsumerAgent.java:270 | Java's `%`: the result has the dividend's sign and magnitude below the divisor |
| JavaLib.Div | src/uk/ac/dmu/iesd/cascade/context/AggregatorAgent.java:395 | Java's `/`: truncates toward zero, so a small negative dividend gives 0 |
| JavaLib.DivRem | src/uk/ac/dmu/iesd/cascade/context/AggregatorAgent.java:395-396 | Java's quotient and remainder rebuild the dividend |
| JavaLib.Copied | src/uk/ac/dmu/iesd/cascade/context/AggregatorAgent.java:397-407 | System.arraycopy: succeeds exactly when both ranges fit, otherwise IndexOutOfBounds with the destination untouched; the copied range holds the source values and every other slot is unchanged |
| JavaLib.CopiedTwice | src/uk/ac/dmu/iesd/cascade/context/ProsumerAgent.java:344-350 | repeating a successful copy changes nothing |
| JavaLib.ArrayCopy | src/uk/ac/dmu/iesd/cascade/context/AggregatorAgent.java:397-407 | the array copy loop leaves the destination equal to `Copied` of the old contents, or throws and leaves it untouched; the source may be the destination |
| JavaLib.Filled | src/uk/ac/dmu/iesd/cascade/context/AggregatorAgent.java:328-330 | Arrays.fill range checks: IllegalArgument when from > to, then IndexOutOfBounds when the range leaves the array; otherwise the length is kept |
| JavaLib.FilledSlots | src/uk/ac/dmu/iesd/cascade/context/AggregatorAgent.java:328-330 | a successful fill sets exactly the slots in [from, to) |
| JavaLib.Fill | src/uk/ac/dmu/iesd/cascade/context/AggregatorAgent.java:319 | the fill loop leaves the array equal to `Filled` of its old contents, or throws and leaves it untouched |
| JavaLib.ArraysEqual | src/uk/ac/dmu/iesd/cascade/context/AggregatorAgent.java:320 | Arrays.equals: true exactly when the references are the same or both arrays have the same contents |
| AgentNames.Shown | src/uk/ac/dmu/iesd/cascade/context/ProsumerAgent.java:194-209 | the base name is shown while no name is stored and none was ever set; a stored name is shown as stored; after setAgentName, exactly the set name is shown, even null |
| Prosumer.Prepare | src/uk/ac/dmu/iesd/cascade/context/ProsumerAgent.java:315-338 | the valid time is noted; a new buffer of `newLength` zeros is allocated exactly when the buffer is null or the recorded length differs; it throws NegativeArraySize only then and only for a negative length; otherwise the buffer is kept |
| Prosumer.Receive | src/uk/ac/dmu/iesd/cascade/context/ProsumerAgent.java:305-360 | without a smart meter, returns true and changes nothing; every call that does not throw returns true; with a smart meter, the valid time is recorded |
| Prosumer.Place | src/uk/ac/dmu/iesd/cascade/context/ProsumerAgent.java:340-351 | the arraycopy into the buffer: succeeds exactly when both ranges fit, otherwise IndexOutOfBounds with the state untouched; the buffer keeps its length and the recorded length and valid time are kept |
| Prosumer.Predict | src/uk/ac/dmu/iesd/cascade/context/ProsumerAgent.java:267-275 | 0 while the recorded length is not positive; for a consistent buffer and `now` at or after the valid time, the slot `(now - validTime) % length`; a time before the valid time with a non-zero Java remainder throws |
| Prosumer.ReceiveAtCurrentTick | src/uk/ac/dmu/iesd/cascade/context/ProsumerAgent.java:308-350 | offset 0, the only case the running system reaches: the buffer is the first `length` signal values, the recorded length is `length`, the valid time is the tick, and the call returns true |
| Prosumer.ReceiveFutureSignal | src/uk/ac/dmu/iesd/cascade/context/ProsumerAgent.java:327-345 | negative offset: the buffer has length `length - offset`; the signal lands at `[-offset, -offset + length)`; earlier slots keep their old values only when the buffer was not reallocated, and are otherwise 0 |
| Prosumer.ReceivePastSignalOverruns | src/uk/ac/dmu/iesd/cascade/context/ProsumerAgent.java:327-351 | positive offset: the call always throws, because `length` values never fit the `length - offset` buffer |
| Prosumer.ReceiveIdempotent | src/uk/ac/dmu/iesd/cascade/context/ProsumerAgent.java:305-351 | receiving the same signal again at the same ticks leaves the state the first receipt left |
| Prosumer.PredictAfterReceive | src/uk/ac/dmu/iesd/cascade/context/ProsumerAgent.java:267-275 | after a full-length signal is received at tick t, the prediction at t + k is signal[k mod length] |
| Prosumer.ReceiveIntended | src/uk/ac/dmu/iesd/cascade/context/ProsumerAgent.java:305-360 | the corrected intake: without a smart meter nothing changes, every call that does not throw returns true, and the tick of receipt is recorded as the valid time |
| Prosumer.ReceiveIntendedDropsElapsed | src/uk/ac/dmu/iesd/cascade/context/ProsumerAgent.java:346-351 | with the corrected intake, a signal received `offset` ticks late keeps exactly its unexpired values, valid from the tick of receipt (the elapsed values are dropped, not wrapped to the end) |
| Prosumer.ReceiveIntendedPredictsSignal | src/uk/ac/dmu/iesd/cascade/context/ProsumerAgent.java:340-351 | with the corrected intake, early, on time or late, the prediction for every unexpired tick validTime + j is signal[j] |
| Prosumer.ReceiveIntendedAgreesAtCurrentTick | src/uk/ac/dmu/iesd/cascade/context/ProsumerAgent.java:308-350 | the code and the corrected intake agree whenever the signal is valid from the tick it arrives |
| Prosumer.ReceiveThreeTicksLate | src/uk/ac/dmu/iesd/cascade/context/ProsumerAgent.java:346-351 | [1..10] valid from 100 and received at 103: the code throws, while the corrected intake stores [4..10] with length 7 |
| Prosumer.ReceiveThreeTicksEarly | src/uk/ac/dmu/iesd/cascade/context/ProsumerAgent.java:340-345 | [1..10] valid from 100 and received at 97: a fresh 13-slot buffer holding [0,0,0,1..10] |
| Prosumer.ReceiveEarlyPredictsPadding | src/uk/ac/dmu/iesd/cascade/context/ProsumerAgent.java:267-275 | [1..10] valid from 100 and received at 97: the code predicts the padding 0 at tick 100 and throws at tick 98, while the corrected intake predicts 1 at tick 100 |
| Prosumer.IdAllocator.constructor | src/uk/ac/dmu/iesd/cascade/context/ProsumerAgent.java:50 | the ID counter starts at 0 |
| Prosumer.ProsumerAgent.constructor | src/uk/ac/dmu/iesd/cascade/context/ProsumerAgent.java:154-157 | takes the next ID and advances the counter; the name shows the base name, the buffer is null and the lengths are 0 |
| Prosumer.ProsumerAgent.GetAgentName | src/uk/ac/dmu/iesd/cascade/context/ProsumerAgent.java:194-199 | returns the shown name and caches it in the field without changing what is shown |
| Prosumer.ProsumerAgent.SetAgentName | src/uk/ac/dmu/iesd/cascade/context/ProsumerAgent.java:206-209 | from now on exactly the given name is shown |
| Prosumer.ProsumerAgent.SetNetDemand | src/uk/ac/dmu/iesd/cascade/context/ProsumerAgent.java:239-241 | the net demand becomes the argument |
| Prosumer.ProsumerAgent.SetPredictedCostSignalLength | src/uk/ac/dmu/iesd/cascade/context/ProsumerAgent.java:263-265 | only the recorded length of the stored prediction changes |
| Prosumer.ProsumerAgent.SetPredictionValidTime | src/uk/ac/dmu/iesd/cascade/context/ProsumerAgent.java:290-292 | only the valid time of the stored prediction changes |
| Prosumer.ProsumerAgent.GetCurrentPrediction | src/uk/ac/dmu/iesd/cascade/context/ProsumerAgent.java:267-275 | 0 while the recorded length is not positive; NullPointer for a positive length without a buffer; for a buffer of the recorded length and `now` at or after the valid time, the slot `(now - validTime) % length` |
| Prosumer.ProsumerAgent.ReceiveValueSignal | src/uk/ac/dmu/iesd/cascade/context/ProsumerAgent.java:305-360 | the stored prediction and the answer are what `Receive` gives; the buffer is replaced by a fresh array exactly when `Receive` reallocates, and otherwise overwritten in place |
| Pricing.SignalChanged | src/uk/ac/dmu/iesd/cascade/context/AggregatorAgent.java:87 | the flag as its comment means it: the new signal differs from the old one in length or in some slot |
| Pricing.FlatRateChangedIffSomeSlotDiffers | src/uk/ac/dmu/iesd/cascade/context/AggregatorAgent.java:316-321 | with that comparison, a flat rate marks the signal changed exactly when some slot held another price |
| Pricing.MorningChangeIndex | src/uk/ac/dmu/iesd/cascade/context/AggregatorAgent.java:325 | the morning change index is 5/16 of the day, rounded down |
| Pricing.EveningChangeIndex | src/uk/ac/dmu/iesd/cascade/context/AggregatorAgent.java:326 | the evening change index is 47/48 of the day, rounded down |
| Pricing.HalfHourlyChangeIndices | src/uk/ac/dmu/iesd/cascade/context/AggregatorAgent.java:325-326 | with 48 ticks a day the change indices are 15 and 47 |
| Pricing.ChangeIndicesOrdered | src/uk/ac/dmu/iesd/cascade/context/AggregatorAgent.java:325-326 | for two or more ticks a day, morning < evening < ticksPerDay |
| Pricing.EconomySeven | src/uk/ac/dmu/iesd/cascade/context/AggregatorAgent.java:328-330 | the three fills keep the signal's length; EconomySevenSlots and EconomySevenThrowsOutside show that they complete exactly when `0 <= m`, `m + 1 <= e` and `e + 1 <= len - 1` |
| Pricing.EconomySevenThrowsOutside | src/uk/ac/dmu/iesd/cascade/context/AggregatorAgent.java:328-330 | when one of the three ranges is not well formed, one of the fills throws |
| Pricing.EconomySevenSlots | src/uk/ac/dmu/iesd/cascade/context/AggregatorAgent.java:328-330 | for well-formed ranges, no throw: [0,m) low, (m,e) high, (e,len-1) low, and slots m, e and len-1 unchanged |
| Pricing.EconomySevenOneDayThrows | src/uk/ac/dmu/iesd/cascade/context/AggregatorAgent.java:325-330 | on a one-day half-hourly signal the third fill throws IllegalArgument |
| Pricing.EconomySevenShortDayThrows | src/uk/ac/dmu/iesd/cascade/context/AggregatorAgent.java:325-330 | on a one-day signal with at most 48 ticks a day, for every such tick count, one of the fills throws IllegalArgument |
| Pricing.EconomySevenIntended | src/uk/ac/dmu/iesd/cascade/context/AggregatorAgent.java:323-332 | the corrected fills keep the signal's length |
| Pricing.EconomySevenIntendedCoversAll | src/uk/ac/dmu/iesd/cascade/context/AggregatorAgent.java:323-332 | with the corrected fills, every slot is set: [m,e) high and every other slot low |
| Pricing.EconomySevenMissesMorningSlot | src/uk/ac/dmu/iesd/cascade/context/AggregatorAgent.java:328-329 | on a two-day half-hourly signal, the code leaves 07:30 (slot 15) at its old price, while the corrected fills make it high |
| Pricing.Capped | src/uk/ac/dmu/iesd/cascade/context/AggregatorAgent.java:347-350 | the price is at most the cap, equals the price or the cap, and is the price whenever that is under the cap |
| Pricing.RoscoeAndAult | src/uk/ac/dmu/iesd/cascade/context/AggregatorAgent.java:339-352 | one price per slot of the signal |
| Pricing.RoscoeAndAultShape | src/uk/ac/dmu/iesd/cascade/context/AggregatorAgent.java:339-352 | no slot exceeds the cap; a slot is the curve's price whenever that is under the cap; the signal repeats every day |
| Broadcast.RepeatCopies | src/uk/ac/dmu/iesd/cascade/context/AggregatorAgent.java:398-402 | the loop of full copies keeps the broadcast's length, and only IndexOutOfBounds can stop it |
| Broadcast.RepeatAndTail | src/uk/ac/dmu/iesd/cascade/context/AggregatorAgent.java:398-407 | the full copies and the tail keep the broadcast's length, and only IndexOutOfBounds can stop them |
| Broadcast.AsWrittenAssembly | src/uk/ac/dmu/iesd/cascade/context/AggregatorAgent.java:394-407 | a successful assembly has the requested length, which is at least what the first copy writes; a negative length throws NegativeArraySize and any other failure is IndexOutOfBounds |
| Broadcast.AsWrittenFullLengthIsWindow | src/uk/ac/dmu/iesd/cascade/context/AggregatorAgent.java:394-407 | a broadcast as long as the price signal never throws, and slot k holds the price of tick time + k |
| Broadcast.AsWrittenMisplacesRepeats | src/uk/ac/dmu/iesd/cascade/context/AggregatorAgent.java:398-402 | prices [1,2] from tick 1 into six slots give [2,1,1,2,0,1], not the window [2,1,2,1,2,1] |
| Broadcast.AsWrittenShortOverruns | src/uk/ac/dmu/iesd/cascade/context/AggregatorAgent.java:397 | a one-slot broadcast of a three-slot signal throws IndexOutOfBounds at the first copy |
| Broadcast.CopyChunks | src/uk/ac/dmu/iesd/cascade/context/AggregatorAgent.java:397-407 | copying in chunks that follow one another fills every slot from `pos` on with the prices read circularly from `srcPos`, and leaves earlier slots alone |
| Broadcast.CorrectedAssembly | src/uk/ac/dmu/iesd/cascade/context/AggregatorAgent.java:394-407 | the corrected copy sequence yields the window for every broadcast length |
| Broadcast.AsWrittenAgreesAtFullLength | src/uk/ac/dmu/iesd/cascade/context/AggregatorAgent.java:304-306 | at the length step uses, the code and the corrected assembly agree |
| Aggregator.Customers | src/uk/ac/dmu/iesd/cascade/context/AggregatorAgent.java:268-277 | every collected customer is the target of an edge, and every prosumer target is collected; when all edges reach prosumers, the customers are the targets in edge order |
| Aggregator.TotalDemand | src/uk/ac/dmu/iesd/cascade/context/AggregatorAgent.java:279-283 | the customers' net demands added up in list order; SumDemand computes it and TotalDemandAppend makes it additive |
| Aggregator.TotalDemandAppend | src/uk/ac/dmu/iesd/cascade/context/AggregatorAgent.java:279-283 | the sum over two lists of customers is the sum of their sums |
| Aggregator.PredictionFollowsPrice | src/uk/ac/dmu/iesd/cascade/context/ProsumerAgent.java:267-275 | a window received at its own tick predicts, for tick + k, the price of tick + k |
| Aggregator.AggregatorAgent.constructor | src/uk/ac/dmu/iesd/cascade/context/AggregatorAgent.java:130-160 | fresh, separate arrays; every price is 125; the system demand is a copy of the base demand; predicted slot j is baseDemand[j] / 7000; the flag is set; the ID is -1 and the base name is shown |
| Aggregator.AggregatorAgent.PredictedFromBase | src/uk/ac/dmu/iesd/cascade/context/AggregatorAgent.java:151-158 | a fresh array of ticksPerDay slots, each the base demand over 7000 |
| Aggregator.AggregatorAgent.GetAgentName | src/uk/ac/dmu/iesd/cascade/context/AggregatorAgent.java:199-204 | returns the shown name and caches it in the field without changing what is shown |
| Aggregator.AggregatorAgent.SetAgentName | src/uk/ac/dmu/iesd/cascade/context/AggregatorAgent.java:211-214 | from now on exactly the given name is shown |
| Aggregator.AggregatorAgent.SetNetDemand | src/uk/ac/dmu/iesd/cascade/context/AggregatorAgent.java:230-232 | the net demand becomes the argument |
| Aggregator.AggregatorAgent.GetCurrentPriceSignal | src/uk/ac/dmu/iesd/cascade/context/AggregatorAgent.java:235-239 | the answer is one of the signal's prices; on the signal's first pass it is the price of that very slot |
| Aggregator.AggregatorAgent.CurrentPriceRepeats | src/uk/ac/dmu/iesd/cascade/context/AggregatorAgent.java:235-239 | the current price repeats with the period of the signal's length |
| Aggregator.AggregatorAgent.SetPriceSignalFlatRate | src/uk/ac/dmu/iesd/cascade/context/AggregatorAgent.java:316-321 | every slot is the price, the length is kept, and the flag always ends true |
| Aggregator.AggregatorAgent.SetPriceSignalEconomySeven | src/uk/ac/dmu/iesd/cascade/context/AggregatorAgent.java:323-332 | the signal and outcome are `EconomySeven` at this agent's change indices; the flag ends true when no fill throws and is untouched otherwise |
| Aggregator.AggregatorAgent.SetPriceSignalRoscoeAndAult | src/uk/ac/dmu/iesd/cascade/context/AggregatorAgent.java:334-354 | the loop leaves the signal equal to `RoscoeAndAult` of the predicted demand, and the flag is set |
| Aggregator.AggregatorAgent.CopyRepeats | src/uk/ac/dmu/iesd/cascade/context/AggregatorAgent.java:398-402 | the loop of full copies leaves the broadcast as `RepeatCopies` says, or throws that function's exception |
| Aggregator.AggregatorAgent.CopyHead | src/uk/ac/dmu/iesd/cascade/context/AggregatorAgent.java:394-397 | a fresh zeroed broadcast with the first copy applied, or that copy's exception |
| Aggregator.AggregatorAgent.CopyRepeatsAndTail | src/uk/ac/dmu/iesd/cascade/context/AggregatorAgent.java:398-407 | the full copies and then the tail copy, as `RepeatAndTail` says |
| Aggregator.AggregatorAgent.AssembleBroadcastSignal | src/uk/ac/dmu/iesd/cascade/context/AggregatorAgent.java:394-407 | a fresh array holding `AsWrittenAssembly` of the prices, or exactly its exception |
| Aggregator.AggregatorAgent.SendToCustomers | src/uk/ac/dmu/iesd/cascade/context/AggregatorAgent.java:409-418 | every customer is sent the signal: smart-metered ones hold it, valid from the tick, and the others are unchanged |
| Aggregator.AggregatorAgent.DeliverTo | src/uk/ac/dmu/iesd/cascade/context/AggregatorAgent.java:417 | one customer receives the signal and no other customer's stored prediction changes |
| Aggregator.AggregatorAgent.BroadcastDemandSignal | src/uk/ac/dmu/iesd/cascade/context/AggregatorAgent.java:384-422 | nothing is sent unless the flag is set; when it is set, customers get the as-written assembly, or nothing if assembly throws; the flag ends false unless the method throws |
| Aggregator.AggregatorAgent.CollectCustomers | src/uk/ac/dmu/iesd/cascade/context/AggregatorAgent.java:263-277 | WrongCustomerType when some edge does not reach a prosumer, otherwise `Customers` of the edges |
| Aggregator.AggregatorAgent.SumDemand | src/uk/ac/dmu/iesd/cascade/context/AggregatorAgent.java:279-283 | the loop computes `TotalDemand` of the customers |
| Aggregator.AggregatorAgent.Respond | src/uk/ac/dmu/iesd/cascade/context/AggregatorAgent.java:279-307 | the net demand is the customers' total; only the current time-of-day slot of the predicted demand changes, and it holds that total; the prices are `RoscoeAndAult`; at midnight every customer is sent the window from the tick and the flag ends false; otherwise no customer changes and the flag stays set |
| Aggregator.AggregatorAgent.Step | src/uk/ac/dmu/iesd/cascade/context/AggregatorAgent.java:254-312 | a non-prosumer edge throws before anything changes; otherwise the step returns true with the state `Respond` describes |
| Aggregator.DeliveredPredictionIsPrice | src/uk/ac/dmu/iesd/cascade/context/AggregatorAgent.java:235-239 | once a smart-metered customer holds the broadcast made at a tick, its prediction for every later tick equals the aggregator's current price |
| Aggregator.NewProsumers | src/uk/ac/dmu/iesd/cascade/context/ProsumerAgent.java:154-157 | three new prosumers get strictly increasing IDs in construction order |
| Aggregator.NewAggregator | src/uk/ac/dmu/iesd/cascade/context/AggregatorAgent.java:130-160 | a valid aggregator with two ticks a day over a two-day base demand |
| Aggregator.ThreeProsumerNetwork | src/uk/ac/dmu/iesd/cascade/context/AggregatorAgent.java:263-283 | three linked prosumers whose net demands total 4 |
| Aggregator.ThreeProsumerStep | src/uk/ac/dmu/iesd/cascade/context/AggregatorAgent.java:254-312 | with demands 2, -1 and 3 at tick 0, the step returns true, the net demand and predicted slot 0 are 4, and the first prosumer holds the broadcast |
| Aggregator.ThreeProsumerScenario | src/uk/ac/dmu/iesd/cascade/context/AggregatorAgent.java:254-312 | after that step, the first prosumer predicts the aggregator's current price for every tick |

## Left out

- Floating point. `float` values are modelled as mathematical reals, so
  rounding, NaN and infinities are not modelled.
- The demand-to-price curve. The curve `A * exp(B * x) + C` with
  `Math.exp`, the division by 10 and the capacity margin is the function
  parameter `curve`. The cap from `Consts` is the parameter `priceCap`.
  The `Consts` class is not part of this model.
- Economy 7 change indices. `(int)(ticksPerDay / (24 / 7.5))` and
  `(int)(ticksPerDay / (24 / 23.5))` are computed in double precision. The
  model uses the exact floors `5 * ticksPerDay / 16` and
  `47 * ticksPerDay / 48`, which abstracts away double rounding.
- `int` overflow is not modelled. Ticks, lengths and indices are unbounded
  integers.
- Repast. `RepastEssentials.GetTickCount` becomes a tick parameter.
  `receiveValueSignal` reads the clock twice, so its two readings are the
  parameters `validTime` and `time`; `step` passes the same tick for both.
  `GetOutEdges` becomes a sequence of `Edge` values. `@ScheduledMethod`
  ordering is not modelled.
- Console output and the `Consts.DEBUG` branches are left out. They do not
  change state.
- `setPriceSignalExpIncreaseOnOverCapacity` is left out. `step` never calls
  it, and its body is floating-point `exp` scaling.
- Weather (`checkWeather` and its getters), `toString`, `getContext` and the
  commented-out constructor are left out. They only read the context or are
  dead code.
- The static `agentIDCounter`. It is an explicit `IdAllocator` object
  passed to the prosumer constructor.
- Plain getters that only read a field are not separate members. These are
  `getNetDemand`, `getAgentID`, `getPredictedCostSignalLength`,
  `getPredictionValidTime` and `hasSmartMeter`. The model reads the field
  directly.
- Prosumer.ProsumerAgent: `hasSmartMeter` is a `const` set by the
  constructor, whereas the Java field is a mutable protected field that
  subclasses set. Nothing in the signal loop changes it. The class also
  omits the fields the signal loop never reads: the context, `ticksPerDay`,
  the base demand profile, the behaviour-change and smart-control flags,
  `receivesCostSignal`, the weather fields and `smartOptimisedProfile`.
- A null `signal` array passed to `receiveValueSignal` is not modelled; the
  parameter is a non-null array.
- Aggregator.AggregatorAgent.constructor: requires
  `0 < ticksPerDay <= baseDemand.Length`. For other values the Java code
  throws, and the model does not describe those exceptions:
  - a zero `ticksPerDay` divides by zero in the whole-days test at line 137;
  - a negative `ticksPerDay` throws NegativeArraySize at
    `new float[ticksPerDay]` (line 151);
  - a `ticksPerDay` past the base demand's length reads past its end
    (line 157).
- Aggregator.AggregatorAgent.Step: requires its customers to be
  `ReadyToReceive` and `Apart`:
  - each buffer's recorded length must match the buffer;
  - no two prosumers may share a buffer;
  - no buffer may be one of the aggregator's arrays.

  `setPredictedCostSignalLength` can break the first condition. A customer
  in that state could throw on receipt, and the model does not describe
  that path.
- Aggregator.AggregatorAgent.BroadcastDemandSignal: carries the same
  requirement on its customers, for the same reason.
- Aggregator.AggregatorAgent.SendToCustomers: carries the same requirement,
  and also requires that no customer's buffer is the broadcast array
  itself.
- Aggregator.AggregatorAgent.Respond: carries the same requirement on its
  customers, for the same reason, even on ticks that are not midnight,
  where nothing is sent. `Step` checks the edges and then calls it.
- Aggregator.AggregatorAgent.DeliverTo: the single `receiveValueSignal`
  call inside the sending loop. It carries the same requirement and the
  same condition on the broadcast array as `SendToCustomers`, for the same
  reason.
- Prosumer.ReceiveIntended: the comment at ProsumerAgent.java:348-349 also
  speaks of wrapping the elapsed values round to the end of the buffer. The
  corrected intake drops them instead, because a wrapped value would be read
  as the price of a tick one buffer length later, which the signal does not
  give.

## Findings

| source | as written | input that shows it | evidently intended | confidence | as-written member | corrected member |
|---|---|---|---|---|---|---|
| src/uk/ac/dmu/iesd/cascade/context/AggregatorAgent.java:328-330 | the fills cover `[0,m)`, `[m+1,e)` and `[e+1,len-1)` | 48 ticks a day and a 96-slot signal: slot 15 (07:30) keeps its old price; on a 48-slot signal the third fill throws | `[0,m)` low, `[m,e)` high, `[e,len)` low | not executed | Pricing.EconomySevenMissesMorningSlot | Pricing.EconomySevenIntendedCoversAll |
| src/uk/ac/dmu/iesd/cascade/context/AggregatorAgent.java:398-407 | repeat copy i goes to `(length - startIndex) * i` and copies the whole signal | prices [1,2], tick 1, broadcast length 6 gives [2,1,1,2,0,1]; length 1 of a 3-slot signal throws | each chunk goes right after the previous one and is no longer than what is left | not executed | Broadcast.AsWrittenMisplacesRepeats | Broadcast.CorrectedAssembly |
| src/uk/ac/dmu/iesd/cascade/context/ProsumerAgent.java:346-351 | a positive offset copies `length` values from index `offset` into a buffer of `length - offset` slots | [1..10] valid from tick 100, received at tick 103: IndexOutOfBounds | copy the `length - offset` unexpired values, valid from the tick of receipt | not executed | Prosumer.ReceivePastSignalOverruns | Prosumer.ReceiveIntendedDropsElapsed |
| src/uk/ac/dmu/iesd/cascade/context/ProsumerAgent.java:316 | the declared valid time is recorded, while slot 0 of the padded buffer stands for the tick of receipt | [1..10] valid from tick 100, received at tick 97: the prediction at tick 100 is the padding 0, not 1, and at tick 98 the negative Java remainder throws IndexOutOfBounds | record the tick of receipt, so tick validTime + j predicts signal[j] | not executed | Prosumer.ReceiveEarlyPredictsPadding | Prosumer.ReceiveIntendedPredictsSignal |
| src/uk/ac/dmu/iesd/cascade/context/AggregatorAgent.java:318-320 | `oldPrice` aliases `priceSignal`, so `Arrays.equals` compares the array with itself; its result is also stored without negation (lines 320 and 331), so a real copy in `oldPrice` alone would set the flag exactly when nothing changed | setting the flat rate the signal already has leaves the flag true | the flag is true only when some slot changed | not executed | Aggregator.AggregatorAgent.SetPriceSignalFlatRate | Pricing.FlatRateChangedIffSomeSlotDiffers |

On every path that `step` reaches, the code and the corrected definitions
agree. The broadcast always has the signal's own length
(`Broadcast.AsWrittenAgreesAtFullLength`), and it is always received on the
tick it is valid from (`Prosumer.ReceiveIntendedAgreesAtCurrentTick`). The
rest of the model therefore uses the code's definitions, and the corrected
ones are proved alongside them.

=== FILE: agent_names.dfy ===
/**
  The naming rule shared by both agent classes (each class carries its own copy
  of getAgentName/setAgentName): a name is stored lazily and may be null, and a
  flag records whether setAgentName was ever called.
*/
module AgentNames {
  import opened JavaLib

  /**
    The name getAgentName reports for a stored name, the explicitly-set flag and
    the class's base name: the base name only while nothing is stored and no
    name was ever set; otherwise exactly what is stored, null included.
  */
  function Shown(stored: Option<string>, explicitlySet: bool, baseName: string): (r: Option<string>)
    ensures !explicitlySet && stored.None? ==> r == Some(baseName)
    ensures explicitlySet ==> r == stored
    ensures stored.Some? ==> r == stored
  {
    if stored.None? && !explicitlySet then Some(baseName) else stored
  }

}

=== FILE: aggregator.dfy ===
/**
  The aggregator side of the price-signal loop. Each tick an AggregatorAgent
  sums the net demand of the prosumers it is linked to, stores the sum as the
  predicted demand for the current time-of-day slot, recomputes its price
  signal, and at the start of each day broadcasts a rotation of that signal to
  every linked prosumer.

  The economic network's out-edges and the tick count are parameters; the
  exponential demand-to-price curve is an uninterpreted function `curve`, and
  the price cap is the parameter `priceCap`.
*/
module Aggregator {
  import opened JavaLib
  import opened Pricing
  import opened Broadcast
  import Prosumer
  import AgentNames
  import Modular

  /** agentBaseName of AggregatorAgent. */
  const BaseName: string := "aggregator"

  /** An out-edge of the economic network: it ends at a prosumer or at some other kind of agent. */
  datatype Edge = Customer(target: Prosumer.ProsumerAgent) | NonProsumer

  /** The prosumers at the ends of the edges that reach one, in edge order (duplicates kept). */
  function Customers(edges: seq<Edge>): (ps: seq<Prosumer.ProsumerAgent>)
    ensures forall i | 0 <= i < |ps| :: Customer(ps[i]) in edges
    ensures forall i | 0 <= i < |edges| && edges[i].Customer? :: edges[i].target in ps
    ensures (forall e | e in edges :: e.Customer?) ==>
      |ps| == |edges| && forall i | 0 <= i < |edges| :: ps[i] == edges[i].target
  {
    if |edges| == 0 then []
    else
      var init := edges[..|edges| - 1];
      var last := edges[|edges| - 1];
      assert edges == init + [last];
      Customers(init) + (if last.Customer? then [last.target] else [])
  }

  /** The sum of the prosumers' net demands, added up in list order. */
  function TotalDemand(ps: seq<Prosumer.ProsumerAgent>): real
    reads ps
  {
    if |ps| == 0 then 0.0 else TotalDemand(ps[..|ps| - 1]) + ps[|ps| - 1].netDemand
  }

  /** The total over two lists of customers is the sum of their totals. */
  lemma {:induction false} TotalDemandAppend(a: seq<Prosumer.ProsumerAgent>, b: seq<Prosumer.ProsumerAgent>)
    ensures TotalDemand(a + b) == TotalDemand(a) + TotalDemand(b)
    decreases |b|
  {
    if |b| == 0 {
      assert a + b == a;
    } else {
      var init := b[..|b| - 1];
      assert (a + b)[..|a + b| - 1] == a + init;
      TotalDemandAppend(a, init);
    }
  }

  /**
    What a broadcast needs of its receivers: each buffer is as long as its
    recorded length says, and no two distinct prosumers share a buffer.
  */
  predicate ReadyToReceive(ps: seq<Prosumer.ProsumerAgent>)
    reads ps
  {
    && (forall p | p in ps ::
          p.predictedCostSignal != null ==> p.predictedCostSignal.Length == p.predictedCostSignalLength)
    && (forall p, q | p in ps && q in ps && p != q && p.predictedCostSignal != null ::
          p.predictedCostSignal != q.predictedCostSignal)
  }

  /**
    The state of `p` after it was sent `signal` at `tick`: a prosumer with a
    smart meter holds exactly that signal, with its length, valid from `tick`;
    any other still holds `before`.
  */
  predicate Delivered(p: Prosumer.ProsumerAgent, before: Prosumer.Intake, signal: seq<real>, tick: int)
    reads p, p.predictedCostSignal
  {
    p.IntakeOf() == if p.hasSmartMeter then Prosumer.Intake(Some(signal), |signal|, tick) else before
  }

  /**
    A broadcast signal received on the tick it is sent is what the prosumer
    predicts for every later tick, and that is the aggregator's price for that
    tick: the prediction at tick + k is the price at tick + k.
  */
  lemma PredictionFollowsPrice(prices: seq<real>, tick: nat, k: nat)
    requires |prices| > 0
    ensures var n := |prices|;
      Prosumer.Predict(Prosumer.Intake(Some(Window(prices, tick, n)), n, tick), tick + k) == Ok(PriceAt(prices, tick + k))
  {
    var n := |prices|;
    var w := Window(prices, tick, n);
    ModShift(k, tick, n);
    assert 0 <= k % n < n;
    assert w[k % n] == PriceAt(prices, tick + k % n);
  }

  /**
    An AggregatorAgent, reduced to the state the signal loop uses. The arrays
    are never replaced after construction, so they are constants here; their
    contents change in place.
  */
  class AggregatorAgent {
    const agentID: int
    var agentName: Option<string>
    var nameExplicitlySet: bool
    var netDemand: real
    const predictedCustomerDemand: array<real>
    const predictedCustomerDemandLength: int
    const overallSystemDemand: array<real>
    const overallSystemDemandLength: int
    const priceSignal: array<real>
    const priceSignalLength: int
    var priceSignalChanged: bool
    const ticksPerDay: int

    /**
      The shape the constructor establishes: one predicted-demand slot per
      tick of the day, a price signal and a system demand as long as the base
      demand, at least a day long, in three separate arrays.
    */
    predicate Valid()
    {
      && 0 < ticksPerDay
      && predictedCustomerDemand.Length == predictedCustomerDemandLength == ticksPerDay
      && priceSignal.Length == priceSignalLength
      && overallSystemDemand.Length == overallSystemDemandLength == priceSignalLength
      && ticksPerDay <= priceSignalLength
      && priceSignal != predictedCustomerDemand
      && priceSignal != overallSystemDemand
      && predictedCustomerDemand != overallSystemDemand
    }

    /** No prosumer's buffer is one of this aggregator's arrays. */
    predicate Apart(ps: seq<Prosumer.ProsumerAgent>)
      reads ps
    {
      forall p | p in ps ::
        && p.predictedCostSignal != priceSignal
        && p.predictedCostSignal != predictedCustomerDemand
        && p.predictedCostSignal != overallSystemDemand
    }

    /** The name getAgentName reports. */
    function ShownName(): Option<string>
      reads this
    {
      AgentNames.Shown(agentName, nameExplicitlySet, BaseName)
    }

    /**
      AggregatorAgent(context, baseDemand), with the context's ticks per day
      passed in. The price signal starts flat at 125 (12.5p per kWh), the
      system demand is a copy of the base demand, and the predicted demand of
      each time-of-day slot is the base demand of that slot over 7000. A base
      demand that is not a whole number of days only draws a warning. The ID
      is never assigned and stays -1.
    */
    constructor (ticksPerDay: int, baseDemand: array<real>)
      requires 0 < ticksPerDay <= baseDemand.Length
      ensures Valid() && fresh(priceSignal) && fresh(predictedCustomerDemand) && fresh(overallSystemDemand)
      ensures this.ticksPerDay == ticksPerDay && priceSignalLength == baseDemand.Length
      ensures priceSignal[..] == seq(baseDemand.Length, _ => 125.0)
      ensures overallSystemDemand[..] == baseDemand[..]
      ensures forall j | 0 <= j < ticksPerDay :: predictedCustomerDemand[j] == baseDemand[j] / 7000.0
      ensures priceSignalChanged && netDemand == 0.0 && agentID == -1
      ensures ShownName() == Some(BaseName) && !nameExplicitlySet
    {
      var n := baseDemand.Length;
      agentID := -1;
      agentName := None;
      nameExplicitlySet := false;
      netDemand := 0.0;
      priceSignalChanged := true;
      this.ticksPerDay := ticksPerDay;
      overallSystemDemandLength := n;
      priceSignalLength := n;
      var prices := new real[n];
      var system := new real[n];
      var copied := ArrayCopy(baseDemand, 0, system, 0, n);
      assert baseDemand[..] == baseDemand[..n];
      ghost var zeros := prices[..];
      var filled := Fill(prices, 0, n, 125.0);
      FilledSlots(zeros, 0, n, 125.0);
      assert prices[..] == seq(n, _ => 125.0);
      assert system[..] == baseDemand[..];
      var predicted := PredictedFromBase(baseDemand, ticksPerDay);
      priceSignal := prices;
      overallSystemDemand := system;
      predictedCustomerDemand := predicted;
      predictedCustomerDemandLength := ticksPerDay;
    }

    /**
      The constructor's loop: the first day of the base demand, each slot
      divided by 7000, as the initial predicted customer demand.
    */
    static method PredictedFromBase(baseDemand: array<real>, ticksPerDay: int) returns (predicted: array<real>)
      requires 0 <= ticksPerDay <= baseDemand.Length
      ensures fresh(predicted) && predicted.Length == ticksPerDay
      ensures forall j | 0 <= j < ticksPerDay :: predicted[j] == baseDemand[j] / 7000.0
    {
      predicted := new real[ticksPerDay];
      for j := 0 to ticksPerDay
        invariant forall i | 0 <= i < j :: predicted[i] == baseDemand[i] / 7000.0
      {
        predicted[j] := baseDemand[j] / 7000.0;
      }
    }

    /** getAgentName: reports the shown name, caching the base name in the field the first time. */
    method GetAgentName() returns (name: Option<string>)
      modifies this`agentName
      ensures name == old(ShownName()) && ShownName() == old(ShownName())
      ensures agentName == name
    {
      if agentName.None? && !nameExplicitlySet {
        agentName := Some(BaseName);
      }
      name := agentName;
    }

    /** setAgentName: from now on exactly `name` is shown, even a null one. */
    method SetAgentName(name: Option<string>)
      modifies this`agentName, this`nameExplicitlySet
      ensures ShownName() == name && nameExplicitlySet
    {
      agentName := name;
      nameExplicitlySet := true;
    }

    /** setNetDemand. */
    method SetNetDemand(nd: real)
      modifies this`netDemand
      ensures netDemand == nd
    {
      netDemand := nd;
    }

    /** getCurrentPriceSignal, with the tick count passed in: the price of the slot the tick falls in. */
    function GetCurrentPriceSignal(tick: nat): (price: real)
      requires Valid()
      reads priceSignal
      ensures price in priceSignal[..]
      ensures tick < priceSignalLength ==> price == priceSignal[tick]
    {
      var slot := tick % priceSignalLength;
      assert tick < priceSignalLength ==> slot == tick by {
        if tick < priceSignalLength {
          Modular.ModUnique(tick, priceSignalLength, 0, tick);
        }
      }
      priceSignal[slot]
    }

    /** The current price repeats with the length of the price signal. */
    lemma CurrentPriceRepeats(tick: nat)
      requires Valid()
      ensures GetCurrentPriceSignal(tick + priceSignalLength) == GetCurrentPriceSignal(tick)
    {
      Modular.ModAddPeriod(tick, priceSignalLength);
    }

    /**
      setPriceSignalFlatRate: every slot becomes `price`. The flag is meant to
      record whether the signal changed, but the comparison is between the
      array and an alias of itself, so it always ends true.
    */
    method SetPriceSignalFlatRate(price: real)
      requires Valid()
      modifies priceSignal, this`priceSignalChanged
      ensures priceSignal[..] == seq(priceSignalLength, _ => price)
      ensures priceSignalChanged
    {
      var oldPrice := priceSignal;
      FilledSlots(priceSignal[..], 0, priceSignal.Length, price);
      var filled := Fill(priceSignal, 0, priceSignal.Length, price);
      priceSignalChanged := ArraysEqual(priceSignal, oldPrice);
    }

    /**
      setPriceSignalEconomySeven: the three fills of EconomySeven at this
      agent's change indices. When a fill throws, the fills before it stay
      done and the flag is not touched; otherwise the flag ends true (the same
      alias comparison as the flat rate).
    */
    method SetPriceSignalEconomySeven(highPrice: real, lowPrice: real) returns (r: Outcome)
      requires Valid()
      modifies priceSignal, this`priceSignalChanged
      ensures (priceSignal[..], r) == EconomySeven(old(priceSignal[..]),
        MorningChangeIndex(ticksPerDay), EveningChangeIndex(ticksPerDay), highPrice, lowPrice)
      ensures priceSignalChanged == if r.Normal? then true else old(priceSignalChanged)
    {
      var morning := MorningChangeIndex(ticksPerDay);
      var evening := EveningChangeIndex(ticksPerDay);
      var oldPrice := priceSignal;
      ghost var s0 := priceSignal[..];
      r := Fill(priceSignal, 0, morning, lowPrice);
      if r.Abrupt? {
        return;
      }
      ghost var s1 := priceSignal[..];
      assert Filled(s0, 0, morning, lowPrice) == Ok(s1);
      r := Fill(priceSignal, morning + 1, evening, highPrice);
      if r.Abrupt? {
        return;
      }
      ghost var s2 := priceSignal[..];
      assert Filled(s1, morning + 1, evening, highPrice) == Ok(s2);
      r := Fill(priceSignal, evening + 1, priceSignal.Length - 1, lowPrice);
      if r.Abrupt? {
        return;
      }
      assert Filled(s2, evening + 1, |s0| - 1, lowPrice) == Ok(priceSignal[..]);
      assert EconomySeven(s0, morning, evening, highPrice, lowPrice) == (priceSignal[..], Normal);
      priceSignalChanged := ArraysEqual(priceSignal, oldPrice);
    }

    /**
      setPriceSignalRoscoeAndAult: slot i gets the curve's price for the
      predicted demand of time-of-day slot i % ticksPerDay, cut down to the
      cap; the flag is set unconditionally.
    */
    method SetPriceSignalRoscoeAndAult(curve: real -> real, priceCap: real)
      requires Valid()
      modifies priceSignal, this`priceSignalChanged
      ensures priceSignal[..] == RoscoeAndAult(predictedCustomerDemand[..], priceSignalLength, curve, priceCap)
      ensures priceSignalChanged
    {
      for i := 0 to priceSignalLength
        invariant forall k | 0 <= k < i ::
          priceSignal[k] == Capped(curve(predictedCustomerDemand[k % ticksPerDay]), priceCap)
      {
        var price := curve(predictedCustomerDemand[i % ticksPerDay]);
        if price > priceCap {
          price := priceCap;
        }
        priceSignal[i] := price;
      }
      priceSignalChanged := true;
    }

    /**
      The loop of broadcastDemandSignal that makes the full copies: copy i
      (from 1 to numCopies) puts the whole price signal at offset
      (length - startIndex) * i, and the first copy that does not fit throws.
    */
    method CopyRepeats(dest: array<real>, startIndex: int, numCopies: int) returns (c: Outcome)
      requires Valid() && dest != priceSignal
      modifies dest
      ensures match RepeatCopies(priceSignal[..], old(dest[..]), startIndex, 1, numCopies)
        case Ok(s) => c == Normal && dest[..] == s
        case Throw(x) => c == Abrupt(x)
    {
      ghost var start := dest[..];
      var i := 1;
      while i <= numCopies
        invariant i >= 1
        invariant RepeatCopies(priceSignal[..], start, startIndex, 1, numCopies)
          == RepeatCopies(priceSignal[..], dest[..], startIndex, i, numCopies)
        decreases numCopies - i
      {
        var addIndex := (priceSignalLength - startIndex) * i;
        ghost var current := dest[..];
        c := ArrayCopy(priceSignal, 0, dest, addIndex, priceSignalLength);
        if c.Abrupt? {
          assert RepeatCopies(priceSignal[..], current, startIndex, i, numCopies) == Throw(c.exc);
          return;
        }
        assert RepeatCopies(priceSignal[..], current, startIndex, i, numCopies)
          == RepeatCopies(priceSignal[..], dest[..], startIndex, i + 1, numCopies);
        i := i + 1;
      }
      return Normal;
    }

    /**
      The assembly half of broadcastDemandSignal: a fresh array filled by the
      System.arraycopy sequence that AsWrittenAssembly describes, or the
      exception the first failing step throws.
    */
    method AssembleBroadcastSignal(time: nat, broadcastLength: int) returns (r: Result<array<real>>)
      requires Valid()
      ensures r.Ok? <==> AsWrittenAssembly(priceSignal[..], time, broadcastLength).Ok?
      ensures r.Ok? ==> fresh(r.value) && r.value[..] == AsWrittenAssembly(priceSignal[..], time, broadcastLength).value
      ensures r.Throw? ==> r.exc == AsWrittenAssembly(priceSignal[..], time, broadcastLength).exc
    {
      if broadcastLength < 0 {
        return Throw(NegativeArraySize);
      }
      ghost var prices := priceSignal[..];
      var numCopies := Div(broadcastLength - 1, priceSignalLength);
      var startIndex := time % priceSignalLength;
      var head := CopyHead(startIndex, broadcastLength);
      if head.Throw? {
        assert AsWrittenAssembly(prices, time, broadcastLength) == Throw(head.exc);
        return Throw(head.exc);
      }
      var broadcastSignal := head.value;
      assert AsWrittenAssembly(prices, time, broadcastLength) == RepeatAndTail(prices, broadcastSignal[..], startIndex, numCopies);
      var c := CopyRepeatsAndTail(broadcastSignal, startIndex, numCopies);
      if c.Abrupt? {
        return Throw(c.exc);
      }
      return Ok(broadcastSignal);
    }

    /** The first copy of broadcastDemandSignal: a new zeroed broadcast holding the prices from startIndex on at its front. */
    method CopyHead(startIndex: int, broadcastLength: nat) returns (r: Result<array<real>>)
      requires Valid()
      ensures var head := Copied(priceSignal[..], startIndex, seq(broadcastLength, _ => 0.0), 0, priceSignalLength - startIndex);
        && (r.Ok? <==> head.Ok?)
        && (r.Ok? ==> fresh(r.value) && r.value[..] == head.value)
        && (r.Throw? ==> r.exc == head.exc)
    {
      var broadcastSignal := new real[broadcastLength](_ => 0.0);
      assert broadcastSignal[..] == seq(broadcastLength, _ => 0.0);
      var c := ArrayCopy(priceSignal, startIndex, broadcastSignal, 0, priceSignalLength - startIndex);
      if c.Abrupt? {
        return Throw(c.exc);
      }
      return Ok(broadcastSignal);
    }

    /** The copies of broadcastDemandSignal after the first: the full copies, then the tail. */
    method CopyRepeatsAndTail(dest: array<real>, startIndex: int, numCopies: int) returns (c: Outcome)
      requires Valid() && dest != priceSignal
      modifies dest
      ensures var s := RepeatAndTail(priceSignal[..], old(dest[..]), startIndex, numCopies);
        if s.Ok? then c == Normal && dest[..] == s.value else c == Abrupt(s.exc)
    {
      c := CopyRepeats(dest, startIndex, numCopies);
      if c.Abrupt? {
        return;
      }
      var written := (numCopies + 1) * priceSignalLength - startIndex;
      if dest.Length > written {
        c := ArrayCopy(priceSignal, 0, dest, written, dest.Length - written);
      }
    }

    /**
      The sending half of broadcastDemandSignal: every customer in turn
      receives the whole signal, valid from the current tick. Such a receipt
      cannot throw, so every smart-metered customer ends up holding the signal
      and every other one is left as it was.
    */
    method SendToCustomers(customers: seq<Prosumer.ProsumerAgent>, signal: array<real>, tick: int)
      requires ReadyToReceive(customers) && Apart(customers)
      requires forall p | p in customers :: p.predictedCostSignal != signal
      modifies customers`predictedCostSignal, customers`predictedCostSignalLength, customers`predictionValidTime
      modifies set p | p in customers && p.predictedCostSignal != null :: p.predictedCostSignal
      ensures ReadyToReceive(customers) && Apart(customers)
      ensures forall p | p in customers :: Delivered(p, old(p.IntakeOf()), signal[..], tick)
      ensures forall p | p in customers && p.predictedCostSignal != old(p.predictedCostSignal) :: fresh(p.predictedCostSignal)
    {
      for i := 0 to |customers|
        invariant ReadyToReceive(customers) && Apart(customers)
        invariant forall p | p in customers :: p.predictedCostSignal != signal
        invariant forall p | p in customers[..i] :: Delivered(p, old(p.IntakeOf()), signal[..], tick)
        invariant forall p | p in customers && p !in customers[..i] :: p.IntakeOf() == old(p.IntakeOf())
        invariant forall p | p in customers && p.predictedCostSignal != old(p.predictedCostSignal) ::
          fresh(p.predictedCostSignal)
      {
        var p := customers[i];
        DeliverTo(customers, p, signal, tick);
        assert customers[..i + 1] == customers[..i] + [p];
      }
    }

    /** One turn of SendToCustomers: `p` receives the signal and the other customers are not touched. */
    method DeliverTo(customers: seq<Prosumer.ProsumerAgent>, p: Prosumer.ProsumerAgent, signal: array<real>, tick: int)
      requires p in customers && ReadyToReceive(customers) && Apart(customers)
      requires forall q | q in customers :: q.predictedCostSignal != signal
      modifies p`predictedCostSignal, p`predictedCostSignalLength, p`predictionValidTime, p.predictedCostSignal
      ensures ReadyToReceive(customers) && Apart(customers)
      ensures forall q | q in customers :: q.predictedCostSignal != signal
      ensures Delivered(p, old(p.IntakeOf()), signal[..], tick)
      ensures forall q | q in customers && q != p :: q.IntakeOf() == old(q.IntakeOf())
      ensures p.predictedCostSignal != old(p.predictedCostSignal) ==> fresh(p.predictedCostSignal)
    {
      ghost var before := p.IntakeOf();
      Prosumer.ReceiveAtCurrentTick(before, signal[..], signal.Length, tick);
      assert signal[..][..signal.Length] == signal[..];
      var received := p.ReceiveValueSignal(signal, signal.Length, tick, tick);
    }

    /**
      broadcastDemandSignal: only while the flag says the signal changed,
      assemble the broadcast and send it to every customer. The flag ends
      false whenever the method completes normally, whether or not anything
      was sent.
    */
    method BroadcastDemandSignal(customers: seq<Prosumer.ProsumerAgent>, time: nat, broadcastLength: int)
      returns (r: Outcome)
      requires Valid() && ReadyToReceive(customers) && Apart(customers)
      modifies this`priceSignalChanged
      modifies customers`predictedCostSignal, customers`predictedCostSignalLength, customers`predictionValidTime
      modifies set p | p in customers && p.predictedCostSignal != null :: p.predictedCostSignal
      ensures ReadyToReceive(customers) && Apart(customers)
      ensures !old(priceSignalChanged) ==>
        r == Normal && forall p | p in customers :: p.IntakeOf() == old(p.IntakeOf())
      ensures old(priceSignalChanged) ==> match AsWrittenAssembly(priceSignal[..], time, broadcastLength)
        case Throw(x) => r == Abrupt(x) && forall p | p in customers :: p.IntakeOf() == old(p.IntakeOf())
        case Ok(s) => r == Normal && forall p | p in customers :: Delivered(p, old(p.IntakeOf()), s, time)
      ensures priceSignalChanged == (r.Abrupt? && old(priceSignalChanged))
    {
      if priceSignalChanged {
        var assembled := AssembleBroadcastSignal(time, broadcastLength);
        if assembled.Throw? {
          return Abrupt(assembled.exc);
        }
        SendToCustomers(customers, assembled.value, time);
      }
      priceSignalChanged := false;
      return Normal;
    }

    /**
      The first loop of step: the targets of the out-edges in order, or
      WrongCustomerType as soon as one of them is not a prosumer.
    */
    static method CollectCustomers(edges: seq<Edge>) returns (r: Result<seq<Prosumer.ProsumerAgent>>)
      ensures NonProsumer in edges ==> r == Throw(WrongCustomerType)
      ensures NonProsumer !in edges ==> r == Ok(Customers(edges))
    {
      var customers: seq<Prosumer.ProsumerAgent> := [];
      for i := 0 to |edges|
        invariant customers == Customers(edges[..i])
        invariant NonProsumer !in edges[..i]
      {
        assert edges[..i + 1] == edges[..i] + [edges[i]];
        match edges[i]
        case Customer(p) =>
          customers := customers + [p];
        case NonProsumer =>
          return Throw(WrongCustomerType);
      }
      assert edges[..|edges|] == edges;
      return Ok(customers);
    }

    /** The second loop of step: the customers' net demands added up in list order. */
    static method SumDemand(customers: seq<Prosumer.ProsumerAgent>) returns (sum: real)
      ensures sum == TotalDemand(customers)
    {
      sum := 0.0;
      for i := 0 to |customers|
        invariant sum == TotalDemand(customers[..i])
      {
        assert customers[..i + 1][..i] == customers[..i];
        sum := sum + customers[i].netDemand;
      }
      assert customers[..|customers|] == customers;
    }

    /**
      The part of step after the customers are known: record their total net
      demand as this agent's net demand and as the predicted demand of the
      current time-of-day slot, recompute the price signal from the curve,
      and at the start of a day broadcast the price signal at its own length.
    */
    method Respond(tick: nat, customers: seq<Prosumer.ProsumerAgent>, curve: real -> real, priceCap: real)
      requires Valid() && ReadyToReceive(customers) && Apart(customers)
      modifies this`netDemand, this`priceSignalChanged, priceSignal, predictedCustomerDemand
      modifies customers`predictedCostSignal, customers`predictedCostSignalLength, customers`predictionValidTime
      modifies set p | p in customers && p.predictedCostSignal != null :: p.predictedCostSignal
      ensures netDemand == old(TotalDemand(customers))
      ensures predictedCustomerDemand[..] == old(predictedCustomerDemand[..])[tick % ticksPerDay := netDemand]
      ensures priceSignal[..] == RoscoeAndAult(predictedCustomerDemand[..], priceSignalLength, curve, priceCap)
      ensures priceSignalChanged == (tick % ticksPerDay != 0)
      ensures tick % ticksPerDay == 0 ==>
        forall p | p in customers :: Delivered(p, old(p.IntakeOf()), Window(priceSignal[..], tick, priceSignalLength), tick)
      ensures tick % ticksPerDay != 0 ==> forall p | p in customers :: p.IntakeOf() == old(p.IntakeOf())
      ensures ReadyToReceive(customers) && Apart(customers)
    {
      var timeOfDay := tick % ticksPerDay;
      var sumDemand := SumDemand(customers);
      SetNetDemand(sumDemand);
      predictedCustomerDemand[timeOfDay] := sumDemand;
      SetPriceSignalRoscoeAndAult(curve, priceCap);
      if timeOfDay == 0 {
        var broadcastLength := priceSignal.Length;
        AsWrittenFullLengthIsWindow(priceSignal[..], tick);
        var sent := BroadcastDemandSignal(customers, tick, broadcastLength);
      }
    }

    /**
      step, with the tick count and the economic network's out-edges passed
      in. An edge that does not end at a prosumer throws before anything is
      changed. Otherwise the customers' total net demand becomes this agent's
      net demand and the predicted demand of the current time-of-day slot,
      the price signal is recomputed from the curve, and at the start of a day
      every smart-metered customer is sent the price signal rotated to start
      at the current tick. The step itself always answers true.
    */
    method Step(tick: nat, edges: seq<Edge>, curve: real -> real, priceCap: real) returns (r: Result<bool>)
      requires Valid() && ReadyToReceive(Customers(edges)) && Apart(Customers(edges))
      modifies this`netDemand, this`priceSignalChanged, priceSignal, predictedCustomerDemand
      modifies Customers(edges)`predictedCostSignal, Customers(edges)`predictedCostSignalLength
      modifies Customers(edges)`predictionValidTime
      modifies set p | p in Customers(edges) && p.predictedCostSignal != null :: p.predictedCostSignal
      ensures NonProsumer in edges ==>
        && r == Throw(WrongCustomerType)
        && netDemand == old(netDemand) && priceSignalChanged == old(priceSignalChanged)
        && predictedCustomerDemand[..] == old(predictedCustomerDemand[..])
        && priceSignal[..] == old(priceSignal[..])
        && forall p | p in Customers(edges) :: p.IntakeOf() == old(p.IntakeOf())
      ensures NonProsumer !in edges ==>
        && r == Ok(true)
        && netDemand == old(TotalDemand(Customers(edges)))
        && predictedCustomerDemand[..] == old(predictedCustomerDemand[..])[tick % ticksPerDay := netDemand]
        && priceSignal[..] == RoscoeAndAult(predictedCustomerDemand[..], priceSignalLength, curve, priceCap)
        && priceSignalChanged == (tick % ticksPerDay != 0)
      ensures NonProsumer !in edges && tick % ticksPerDay == 0 ==>
        forall p | p in Customers(edges) :: Delivered(p, old(p.IntakeOf()), Window(priceSignal[..], tick, priceSignalLength), tick)
      ensures NonProsumer !in edges && tick % ticksPerDay != 0 ==>
        forall p | p in Customers(edges) :: p.IntakeOf() == old(p.IntakeOf())
      ensures ReadyToReceive(Customers(edges)) && Apart(Customers(edges))
    {
      var collected := CollectCustomers(edges);
      if collected.Throw? {
        return Throw(collected.exc);
      }
      Respond(tick, collected.value, curve, priceCap);
      return Ok(true);
    }
  }

  /**
    The loop closed: once a smart-metered customer holds the broadcast of the
    aggregator's price signal made at `tick`, its prediction for any tick from
    then on is the aggregator's current price for that tick.
  */
  lemma DeliveredPredictionIsPrice(agg: AggregatorAgent, p: Prosumer.ProsumerAgent, before: Prosumer.Intake, tick: nat)
    requires agg.Valid() && p.hasSmartMeter
    requires Delivered(p, before, Window(agg.priceSignal[..], tick, agg.priceSignalLength), tick)
    ensures forall t: nat | t >= tick :: p.GetCurrentPrediction(t) == Ok(agg.GetCurrentPriceSignal(t))
  {
    forall t: nat | t >= tick
      ensures p.GetCurrentPrediction(t) == Ok(agg.GetCurrentPriceSignal(t))
    {
      PredictionFollowsPrice(agg.priceSignal[..], tick, t - tick);
    }
  }

  /** Three customers' total, unfolded. */
  lemma TotalOfThree(a: Prosumer.ProsumerAgent, b: Prosumer.ProsumerAgent, c: Prosumer.ProsumerAgent)
    ensures TotalDemand([a, b, c]) == a.netDemand + b.netDemand + c.netDemand
  {
    assert [a, b, c][..2] == [a, b];
    assert [a, b][..1] == [a];
    assert [a][..0] == [];
    assert TotalDemand([a]) == a.netDemand;
    assert TotalDemand([a, b]) == a.netDemand + b.netDemand;
  }

  /** Three edges to prosumers give those three customers, in order. */
  lemma CustomersOfThree(a: Prosumer.ProsumerAgent, b: Prosumer.ProsumerAgent, c: Prosumer.ProsumerAgent)
    ensures Customers([Customer(a), Customer(b), Customer(c)]) == [a, b, c]
  {
    var edges := [Customer(a), Customer(b), Customer(c)];
    assert edges[..2] == [Customer(a), Customer(b)];
    assert edges[..2][..1] == [Customer(a)];
    assert edges[..2][..1][..0] == [];
  }

  /** Three new smart-metered prosumers with net demands 2, -1 and 3, numbered in order of construction. */
  method NewProsumers() returns (a: Prosumer.ProsumerAgent, b: Prosumer.ProsumerAgent, c: Prosumer.ProsumerAgent)
    ensures fresh(a) && fresh(b) && fresh(c) && a != b && b != c && a != c
    ensures a.hasSmartMeter && a.predictedCostSignal == null && b.predictedCostSignal == null && c.predictedCostSignal == null
    ensures a.IntakeOf() == Prosumer.Intake(None, 0, 0)
    ensures a.netDemand == 2.0 && b.netDemand == -1.0 && c.netDemand == 3.0
    ensures a.agentID < b.agentID < c.agentID
  {
    var ids := new Prosumer.IdAllocator();
    a := new Prosumer.ProsumerAgent(ids, true);
    b := new Prosumer.ProsumerAgent(ids, true);
    c := new Prosumer.ProsumerAgent(ids, true);
    a.SetNetDemand(2.0);
    b.SetNetDemand(-1.0);
    c.SetNetDemand(3.0);
  }

  /** An aggregator with two ticks a day over a two-day base demand of 7000 per tick. */
  method NewAggregator() returns (agg: AggregatorAgent)
    ensures fresh(agg) && fresh(agg.priceSignal) && fresh(agg.predictedCustomerDemand) && fresh(agg.overallSystemDemand)
    ensures agg.Valid() && agg.ticksPerDay == 2 && agg.priceSignalLength == 4
  {
    var baseDemand := new real[4](_ => 7000.0);
    agg := new AggregatorAgent(2, baseDemand);
  }

  /**
    The scenario's starting point: the aggregator above and edges to three
    smart-metered prosumers whose net demands are 2, -1 and 3, ready to be
    stepped.
  */
  method ThreeProsumerNetwork() returns (agg: AggregatorAgent, first: Prosumer.ProsumerAgent, edges: seq<Edge>)
    ensures fresh(agg) && fresh(agg.priceSignal) && fresh(agg.predictedCustomerDemand)
    ensures forall p | p in Customers(edges) :: fresh(p) && p.predictedCostSignal == null
    ensures agg.Valid() && agg.ticksPerDay == 2 && NonProsumer !in edges
    ensures first.hasSmartMeter && first.IntakeOf() == Prosumer.Intake(None, 0, 0)
    ensures first in Customers(edges) && TotalDemand(Customers(edges)) == 4.0
    ensures ReadyToReceive(Customers(edges)) && agg.Apart(Customers(edges))
  {
    var second, third;
    first, second, third := NewProsumers();
    TotalOfThree(first, second, third);
    agg := NewAggregator();
    edges := [Customer(first), Customer(second), Customer(third)];
    CustomersOfThree(first, second, third);
    var customers := [first, second, third];
    assert ReadyToReceive(customers) && agg.Apart(customers);
  }

  /**
    That network stepped at tick 0: the aggregator's net demand and the
    predicted demand of slot 0 are 4, and the first prosumer holds the
    broadcast of the new price signal.
  */
  method ThreeProsumerStep(curve: real -> real, priceCap: real)
    returns (agg: AggregatorAgent, first: Prosumer.ProsumerAgent, r: Result<bool>)
    ensures r == Ok(true) && agg.Valid() && agg.ticksPerDay == 2
    ensures agg.netDemand == 4.0 && agg.predictedCustomerDemand[0] == 4.0
    ensures first.hasSmartMeter
    ensures Delivered(first, Prosumer.Intake(None, 0, 0), Window(agg.priceSignal[..], 0, agg.priceSignalLength), 0)
  {
    var edges;
    agg, first, edges := ThreeProsumerNetwork();
    assert 0 % agg.ticksPerDay == 0;
    r := agg.Step(0, edges, curve, priceCap);
    assert agg.predictedCustomerDemand[..][0] == 4.0;
  }

  /** After that step, the first prosumer predicts the aggregator's price for every tick. */
  method ThreeProsumerScenario(curve: real -> real, priceCap: real)
    returns (agg: AggregatorAgent, first: Prosumer.ProsumerAgent)
    ensures agg.Valid() && agg.netDemand == 4.0
    ensures forall t: nat :: first.GetCurrentPrediction(t) == Ok(agg.GetCurrentPriceSignal(t))
  {
    var r;
    agg, first, r := ThreeProsumerStep(curve, priceCap);
    DeliveredPredictionIsPrice(agg, first, Prosumer.Intake(None, 0, 0), 0);
  }
}

=== FILE: broadcast.dfy ===
/**
  Assembling the broadcast: a signal of the requested length that reads the
  price signal circularly from the current tick. The reference definition is
  Window; AsWrittenAssembly is the System.arraycopy sequence the aggregator
  performs, and CorrectedAssembly is that sequence with its offsets fixed.
*/
module Broadcast {
  import opened JavaLib
  import Modular

  /** The price applying at absolute tick `tick`: the signal is addressed modulo its length. */
  function PriceAt(prices: seq<real>, tick: nat): real
    requires |prices| > 0
  {
    prices[tick % |prices|]
  }

  /** The intended broadcast: `n` prices read circularly from tick `start`. */
  function Window(prices: seq<real>, start: nat, n: nat): (w: seq<real>)
    requires |prices| > 0
  {
    seq(n, k requires 0 <= k < n => PriceAt(prices, start + k))
  }

  /**
    The loop of full copies: for i from `i` to `numCopies`, all of `prices`
    copied to offset (length - startIndex) * i. The first failing copy throws.
  */
  function RepeatCopies(prices: seq<real>, out: seq<real>, startIndex: int, i: int, numCopies: int): (r: Result<seq<real>>)
    ensures r.Ok? ==> |r.value| == |out|
    ensures r.Throw? ==> r.exc == IndexOutOfBounds
    ensures i > numCopies ==> r == Ok(out)
    decreases numCopies - i + 1
  {
    if i > numCopies then Ok(out)
    else
      match Copied(prices, 0, out, (|prices| - startIndex) * i, |prices|)
      case Throw(x) => Throw(x)
      case Ok(next) => RepeatCopies(prices, next, startIndex, i + 1, numCopies)
  }

  /**
    What follows the first copy: the loop of full copies, then, when the
    broadcast is longer than what has been written, a tail copied from the
    start of the prices.
  */
  function RepeatAndTail(prices: seq<real>, head: seq<real>, startIndex: int, numCopies: int): (r: Result<seq<real>>)
    ensures r.Ok? ==> |r.value| == |head|
    ensures r.Throw? ==> r.exc == IndexOutOfBounds
  {
    match RepeatCopies(prices, head, startIndex, 1, numCopies)
    case Throw(x) => Throw(x)
    case Ok(body) =>
      var written := (numCopies + 1) * |prices| - startIndex;
      if |head| > written then Copied(prices, 0, body, written, |head| - written)
      else Ok(body)
  }

  /**
    broadcastDemandSignal's assembly as written: allocate the broadcast array
    (zeros), copy the prices from startIndex = time % length to the end of the
    price signal to the front, make numCopies = (broadcastLength - 1) / length
    full copies, then copy a tail from the start of the prices if anything is
    left. Every copy is a System.arraycopy and may throw.
  */
  function AsWrittenAssembly(prices: seq<real>, time: nat, broadcastLength: int): (r: Result<seq<real>>)
    requires |prices| > 0
    ensures r.Ok? ==> |r.value| == broadcastLength
    ensures r.Throw? ==> r.exc == if broadcastLength < 0 then NegativeArraySize else IndexOutOfBounds
    ensures broadcastLength >= 0 && r.Ok? ==> time % |prices| + broadcastLength >= |prices|
  {
    if broadcastLength < 0 then Throw(NegativeArraySize)
    else
      var length := |prices|;
      var startIndex := time % length;
      match Copied(prices, startIndex, seq(broadcastLength, _ => 0.0), 0, length - startIndex)
      case Throw(x) => Throw(x)
      case Ok(head) => RepeatAndTail(prices, head, startIndex, Div(broadcastLength - 1, length))
  }

  /**
    With the broadcast as long as the price signal (the only length the
    aggregator asks for) the assembly never throws and is the rotation of the
    prices starting at the current tick.
  */
  lemma AsWrittenFullLengthIsWindow(prices: seq<real>, time: nat)
    requires |prices| > 0
    ensures AsWrittenAssembly(prices, time, |prices|) == Ok(Window(prices, time, |prices|))
  {
    var length := |prices|;
    var startIndex := time % length;
    var w := Window(prices, time, length);
    assert Div(length - 1, length) == 0;
    var head := Copied(prices, startIndex, seq(length, _ => 0.0), 0, length - startIndex);
    assert head.Ok?;
    var body := head.value;
    assert RepeatCopies(prices, body, startIndex, 1, 0) == Ok(body);
    assert (0 + 1) * length - startIndex == length - startIndex;
    var out := if startIndex > 0 then Copied(prices, 0, body, length - startIndex, startIndex).value else body;
    assert RepeatAndTail(prices, body, startIndex, 0) == Ok(out);
    forall k | 0 <= k < length
      ensures out[k] == w[k]
    {
      RotatedSlot(time, k, length);
      if startIndex + k < length {
        assert out[k] == body[k] == prices[startIndex + k];
      } else {
        assert out[k] == prices[k - (length - startIndex)];
      }
    }
    assert out == w;
  }

  /** Tick time + k lands at slot startIndex + k before the wrap and startIndex + k - length after it. */
  lemma RotatedSlot(time: nat, k: nat, length: nat)
    requires 0 < length && k < length
    ensures var startIndex := time % length;
      (time + k) % length == if startIndex + k < length then startIndex + k else startIndex + k - length
  {
    var q, startIndex := time / length, time % length;
    assert time + k == length * q + (startIndex + k);
    if startIndex + k < length {
      Modular.ModUnique(time + k, length, q, startIndex + k);
    } else {
      assert time + k == length * (q + 1) + (startIndex + k - length);
      Modular.ModUnique(time + k, length, q + 1, startIndex + k - length);
    }
  }

  /**
    Counterexample for longer broadcasts: the price signal [1, 2] read from
    tick 1 into six slots. The second full copy lands at offset 2
    instead of 3, overwriting slot 2 and leaving slot 4 at zero.
  */
  lemma AsWrittenMisplacesRepeats()
    ensures AsWrittenAssembly([1.0, 2.0], 1, 6) == Ok([2.0, 1.0, 1.0, 2.0, 0.0, 1.0])
    ensures Window([1.0, 2.0], 1, 6) == [2.0, 1.0, 2.0, 1.0, 2.0, 1.0]
  {
    var prices := [1.0, 2.0];
    assert Div(5, 2) == 2;
    var head := Copied(prices, 1, seq(6, _ => 0.0), 0, 1).value;
    assert head == [2.0, 0.0, 0.0, 0.0, 0.0, 0.0];
    var once := Copied(prices, 0, head, 1, 2).value;
    assert once == [2.0, 1.0, 2.0, 0.0, 0.0, 0.0];
    var twice := Copied(prices, 0, once, 2, 2).value;
    assert twice == [2.0, 1.0, 1.0, 2.0, 0.0, 0.0];
    assert RepeatCopies(prices, twice, 1, 3, 2) == Ok(twice);
    assert RepeatCopies(prices, head, 1, 1, 2) == Ok(twice);
    assert Copied(prices, 0, twice, 5, 1).value == [2.0, 1.0, 1.0, 2.0, 0.0, 1.0];
    var w := Window(prices, 1, 6);
    assert w[0] == prices[1 % 2] && w[1] == prices[2 % 2] && w[2] == prices[3 % 2];
    assert w[3] == prices[4 % 2] && w[4] == prices[5 % 2] && w[5] == prices[6 % 2];
  }

  /**
    Counterexample for shorter broadcasts: the first copy always writes
    length - startIndex values, so a one-slot broadcast of a three-slot price
    signal from tick 0 overruns the broadcast array.
  */
  lemma AsWrittenShortOverruns(prices: seq<real>)
    requires |prices| == 3
    ensures AsWrittenAssembly(prices, 0, 1) == Throw(IndexOutOfBounds)
  {
    assert !CopyInBounds(3, 0, 1, 0, 3);
  }

  /**
    The corrected copy sequence from position `pos` on: copy from `srcPos` as
    many prices as fit both the rest of the price signal and the rest of the
    broadcast, then carry on from price 0 right after what was written.
  */
  function CopyChunks(prices: seq<real>, out: seq<real>, pos: nat, srcPos: nat): (r: seq<real>)
    requires |prices| > 0 && pos <= |out| && srcPos < |prices|
    ensures |r| == |out|
    ensures forall k | 0 <= k < pos :: r[k] == out[k]
    ensures forall k | pos <= k < |out| :: r[k] == prices[(srcPos + (k - pos)) % |prices|]
    decreases |out| - pos
  {
    if pos == |out| then out
    else
      var n := if |prices| - srcPos <= |out| - pos then |prices| - srcPos else |out| - pos;
      var c := Copied(prices, srcPos, out, pos, n);
      assert c.Ok?;
      var r := CopyChunks(prices, c.value, pos + n, 0);
      assert forall k | pos <= k < pos + n :: r[k] == prices[(srcPos + (k - pos)) % |prices|] by {
        forall k | pos <= k < pos + n
          ensures r[k] == prices[(srcPos + (k - pos)) % |prices|]
        {
          Modular.ModUnique(srcPos + (k - pos), |prices|, 0, srcPos + (k - pos));
        }
      }
      assert forall k | pos + n <= k < |out| :: r[k] == prices[(srcPos + (k - pos)) % |prices|] by {
        forall k | pos + n <= k < |out|
          ensures r[k] == prices[(srcPos + (k - pos)) % |prices|]
        {
          Modular.ModAddPeriod(k - (pos + n), |prices|);
        }
      }
      r
  }

  /**
    broadcastDemandSignal's assembly with the offsets corrected: each chunk
    goes right after the previous one, and no chunk is longer than what is
    left of the broadcast. It yields the intended window for every length.
  */
  function CorrectedAssembly(prices: seq<real>, time: nat, broadcastLength: nat): (out: seq<real>)
    requires |prices| > 0
    ensures out == Window(prices, time, broadcastLength)
  {
    var out := CopyChunks(prices, seq(broadcastLength, _ => 0.0), 0, time % |prices|);
    assert forall k | 0 <= k < broadcastLength :: out[k] == PriceAt(prices, time + k) by {
      forall k | 0 <= k < broadcastLength
        ensures out[k] == PriceAt(prices, time + k)
      {
        ModShift(time, k, |prices|);
      }
    }
    out
  }

  /** Shifting by k from tick `time` is shifting by k from its slot. */
  lemma ModShift(time: nat, k: nat, length: nat)
    requires length > 0
    ensures (time % length + k) % length == (time + k) % length
  {
    var q, startIndex := time / length, time % length;
    var q2, r2 := (startIndex + k) / length, (startIndex + k) % length;
    assert startIndex + k == length * q2 + r2;
    assert time + k == length * (q + q2) + r2;
    Modular.ModUnique(time + k, length, q + q2, r2);
  }

  /** On the one length the aggregator uses, the code as written and the corrected assembly agree. */
  lemma AsWrittenAgreesAtFullLength(prices: seq<real>, time: nat)
    requires |prices| > 0
    ensures AsWrittenAssembly(prices, time, |prices|) == Ok(CorrectedAssembly(prices, time, |prices|))
  {
    AsWrittenFullLengthIsWindow(prices, time);
  }
}

=== FILE: java_lib.dfy ===
/**
  The few pieces of the Java runtime that the two agents lean on: int division
  and remainder (which truncate toward zero), System.arraycopy, Arrays.fill,
  Arrays.equals, nullable references and the exceptions these throw.

  A Java exception is modelled as a value: an operation that can throw returns
  a Result (or an Outcome when the Java method is void), and any state it had
  changed before the throw stays changed.
*/
module JavaLib {

  /** A Java reference that may be null. */
  datatype Option<T> = None | Some(value: T)

  /** The exceptions the core can raise. */
  datatype Exception =
    | IndexOutOfBounds    // ArrayIndexOutOfBoundsException from an array access or arraycopy
    | NegativeArraySize   // `new float[n]` with n < 0
    | IllegalArgument     // Arrays.fill with fromIndex > toIndex
    | NullPointer         // indexing an array that is still null
    | WrongCustomerType   // an economic-network edge that does not end at a prosumer

  /** What a value-returning Java method does: returns a value or throws. */
  datatype Result<T> = Ok(value: T) | Throw(exc: Exception)

  /** What a void Java method does: completes normally or throws. */
  datatype Outcome = Normal | Abrupt(exc: Exception)

  /** Java's `a % b` for a positive divisor: the result takes the sign of `a`. */
  function Rem(a: int, b: int): (r: int)
    requires b > 0
    ensures a >= 0 ==> 0 <= r < b
    ensures a < 0 ==> -b < r <= 0
  {
    if a >= 0 then a % b else -((-a) % b)
  }

  /** Java's `a / b` for a positive divisor: the quotient is truncated toward zero. */
  function Div(a: int, b: int): (q: int)
    requires b > 0
    ensures a >= 0 ==> q >= 0
    ensures -b < a <= 0 ==> q == 0
  {
    if a >= 0 then a / b else -((-a) / b)
  }

  /** Java's quotient and remainder put the dividend back together. */
  lemma DivRem(a: int, b: int)
    requires b > 0
    ensures Div(a, b) * b + Rem(a, b) == a
  {
    var n := if a >= 0 then a else -a;
    assert n == (n / b) * b + n % b;
    if a < 0 {
      calc {
        Div(a, b) * b + Rem(a, b);
        (-(n / b)) * b - n % b;
        -((n / b) * b + n % b);
        a;
      }
    }
  }

  /** The bounds System.arraycopy checks before it copies anything. */
  predicate CopyInBounds(srcLength: int, srcPos: int, destLength: int, destPos: int, length: int)
  {
    0 <= srcPos && 0 <= destPos && 0 <= length
    && srcPos + length <= srcLength && destPos + length <= destLength
  }

  /**
    System.arraycopy on values: `dest` with `length` elements of `src` taken from
    `srcPos` placed at `destPos`, or IndexOutOfBounds (and `dest` untouched) when
    the range does not fit either array.
  */
  function Copied<T>(src: seq<T>, srcPos: int, dest: seq<T>, destPos: int, length: int): (r: Result<seq<T>>)
    ensures r.Ok? <==> CopyInBounds(|src|, srcPos, |dest|, destPos, length)
    ensures r.Throw? ==> r.exc == IndexOutOfBounds
    ensures r.Ok? ==> |r.value| == |dest|
    ensures r.Ok? ==> forall k | 0 <= k < |dest| ::
      r.value[k] == if destPos <= k < destPos + length then src[srcPos + (k - destPos)] else dest[k]
  {
    if CopyInBounds(|src|, srcPos, |dest|, destPos, length) then
      Ok(dest[..destPos] + src[srcPos..srcPos + length] + dest[destPos + length..])
    else
      Throw(IndexOutOfBounds)
  }

  /** Copying the same range twice leaves what copying it once leaves. */
  lemma CopiedTwice<T>(src: seq<T>, srcPos: int, dest: seq<T>, destPos: int, length: int)
    requires Copied(src, srcPos, dest, destPos, length).Ok?
    ensures var once := Copied(src, srcPos, dest, destPos, length).value;
      Copied(src, srcPos, once, destPos, length) == Ok(once)
  {
    var once := Copied(src, srcPos, dest, destPos, length).value;
    var twice := Copied(src, srcPos, once, destPos, length);
    assert twice.Ok?;
    assert forall k | 0 <= k < |once| :: twice.value[k] == once[k];
    assert twice.value == once;
  }

  /**
    Arrays.fill(a, from, to, v) on values: slots [from, to) become v; the range
    check throws IllegalArgument when from > to and IndexOutOfBounds when the
    range leaves the array, in that order.
  */
  function Filled<T>(s: seq<T>, from: int, to: int, v: T): (r: Result<seq<T>>)
    ensures r.Ok? <==> 0 <= from <= to <= |s|
    ensures r.Throw? ==> r.exc == if from > to then IllegalArgument else IndexOutOfBounds
    ensures r.Ok? ==> |r.value| == |s|
  {
    if from > to then Throw(IllegalArgument)
    else if from < 0 || to > |s| then Throw(IndexOutOfBounds)
    else Ok(s[..from] + seq(to - from, _ => v) + s[to..])
  }

  /** A fill that goes through sets exactly the slots of its range. */
  lemma FilledSlots<T>(s: seq<T>, from: int, to: int, v: T)
    requires 0 <= from <= to <= |s|
    ensures forall k | 0 <= k < |s| :: Filled(s, from, to, v).value[k] == if from <= k < to then v else s[k]
  {
  }

  /** System.arraycopy: the copy behaves as if `src` were first copied to a temporary, so `src == dest` is allowed. */
  method ArrayCopy<T>(src: array<T>, srcPos: int, dest: array<T>, destPos: int, length: int) returns (r: Outcome)
    modifies dest
    ensures var c := Copied(old(src[..]), srcPos, old(dest[..]), destPos, length);
      if c.Ok? then r == Normal && dest[..] == c.value
      else r == Abrupt(c.exc) && dest[..] == old(dest[..])
  {
    if !CopyInBounds(src.Length, srcPos, dest.Length, destPos, length) {
      return Abrupt(IndexOutOfBounds);
    }
    var temp := src[..];
    var k := 0;
    while k < length
      invariant 0 <= k <= length
      invariant forall j | 0 <= j < dest.Length ::
        dest[j] == if destPos <= j < destPos + k then temp[srcPos + (j - destPos)] else old(dest[j])
    {
      dest[destPos + k] := temp[srcPos + k];
      k := k + 1;
    }
    r := Normal;
    ghost var c := Copied(old(src[..]), srcPos, old(dest[..]), destPos, length);
    assert forall j | 0 <= j < dest.Length :: dest[..][j] == c.value[j];
  }

  /** Arrays.fill(a, from, to, v); the whole-array form Arrays.fill(a, v) is Fill(a, 0, a.Length, v). */
  method Fill<T>(a: array<T>, from: int, to: int, v: T) returns (r: Outcome)
    modifies a
    ensures var f := Filled(old(a[..]), from, to, v);
      if f.Ok? then r == Normal && a[..] == f.value
      else r == Abrupt(f.exc) && a[..] == old(a[..])
  {
    if from > to {
      return Abrupt(IllegalArgument);
    }
    if from < 0 || to > a.Length {
      return Abrupt(IndexOutOfBounds);
    }
    var k := from;
    while k < to
      invariant from <= k <= to
      invariant forall j | 0 <= j < a.Length :: a[j] == if from <= j < k then v else old(a[j])
    {
      a[k] := v;
      k := k + 1;
    }
    r := Normal;
    ghost var f := Filled(old(a[..]), from, to, v);
    FilledSlots(old(a[..]), from, to, v);
    assert forall j | 0 <= j < a.Length :: a[..][j] == f.value[j];
  }

  /**
    Arrays.equals: true when both references are the same (also both null), or
    both are non-null with the same length and the same elements.
  */
  method ArraysEqual<T(==)>(a: array?<T>, b: array?<T>) returns (eq: bool)
    ensures eq <==> a == b || (a != null && b != null && a[..] == b[..])
  {
    if a == b {
      return true;
    }
    if a == null || b == null || a.Length != b.Length {
      return false;
    }
    var k := 0;
    while k < a.Length
      invariant 0 <= k <= a.Length
      invariant a[..k] == b[..k]
    {
      if a[k] != b[k] {
        assert a[..][k] != b[..][k];
        return false;
      }
      k := k + 1;
    }
    assert a[..] == a[..k] && b[..] == b[..k];
    return true;
  }
}

=== FILE: modular.dfy ===
/** Facts about Dafny's (Euclidean) remainder used by the circular indexing of signal buffers. */
module Modular {

  lemma MulAtLeast(d: int, t: int)
    requires d > 0 && t >= 1
    ensures d * t >= d
  {
    if t > 1 {
      MulAtLeast(d, t - 1);
      assert d * t == d * (t - 1) + d;
    }
  }

  /** A quotient-remainder decomposition with 0 <= r < d is the one `%` finds. */
  lemma ModUnique(x: int, d: int, q: int, r: int)
    requires d > 0 && x == d * q + r && 0 <= r < d
    ensures x % d == r
  {
    var q', r' := x / d, x % d;
    assert x == d * q' + r';
    assert d * (q - q') == r' - r;
    if q > q' {
      MulAtLeast(d, q - q');
    }
    if q < q' {
      MulAtLeast(d, q' - q);
    }
  }

  /** Adding a whole period does not move an index's slot. */
  lemma ModAddPeriod(x: int, d: int)
    requires d > 0
    ensures (x + d) % d == x % d
  {
    var q, r := x / d, x % d;
    assert x == d * q + r;
    assert x + d == d * (q + 1) + r;
    ModUnique(x + d, d, q + 1, r);
  }
}

=== FILE: pricing.dfy ===
/**
  The three pricing rules the aggregator can apply to its price signal, as
  functions from the old signal (and the predicted demand) to the new one:
  a flat rate, the two-tier "Economy 7" time-of-use tariff, and the capped
  exponential curve estimated from Roscoe and Ault.
*/
module Pricing {
  import opened JavaLib
  import Modular

  /**
    The dirty flag as the field's comment describes it: a new signal is worth
    sending when it differs from the one it replaces.
  */
  function SignalChanged(before: seq<real>, after: seq<real>): (changed: bool)
    ensures changed <==> |before| != |after| || exists i | 0 <= i < |before| :: before[i] != after[i]
  {
    before != after
  }

  /**
    With the comparison the comment intends, re-applying a flat rate marks the
    signal changed exactly when some slot was at another price.
  */
  lemma FlatRateChangedIffSomeSlotDiffers(before: seq<real>, price: real)
    ensures SignalChanged(before, seq(|before|, _ => price)) <==> exists i | 0 <= i < |before| :: before[i] != price
  {
  }

  /**
    Start of the high-price band: ticksPerDay / (24 / 7.5), truncated, taken
    over the rationals, that is 5/16 of the day rounded down.
  */
  function MorningChangeIndex(ticksPerDay: nat): (m: nat)
    ensures m * 16 <= ticksPerDay * 5 < (m + 1) * 16
  {
    (ticksPerDay * 5) / 16
  }

  /**
    End of the high-price band: ticksPerDay / (24 / 23.5), truncated, taken
    over the rationals, that is 47/48 of the day rounded down.
  */
  function EveningChangeIndex(ticksPerDay: nat): (e: nat)
    ensures e * 48 <= ticksPerDay * 47 < (e + 1) * 48
  {
    (ticksPerDay * 47) / 48
  }

  /** For half-hourly ticks the band runs from 07:30 (slot 15) to 23:30 (slot 47). */
  lemma HalfHourlyChangeIndices()
    ensures MorningChangeIndex(48) == 15 && EveningChangeIndex(48) == 47
  {
  }

  /** Both change indices fall inside the day, morning strictly before evening once a day has two ticks. */
  lemma ChangeIndicesOrdered(ticksPerDay: nat)
    requires ticksPerDay >= 2
    ensures MorningChangeIndex(ticksPerDay) < EveningChangeIndex(ticksPerDay) < ticksPerDay
  {
    var m, e := MorningChangeIndex(ticksPerDay), EveningChangeIndex(ticksPerDay);
    assert m * 16 <= ticksPerDay * 5;
    assert ticksPerDay * 47 < (e + 1) * 48;
    assert e * 48 <= ticksPerDay * 47;
  }

  /**
    setPriceSignalEconomySeven as written, for change indices m and e: three
    Arrays.fill calls on [0, m), [m + 1, e) and [e + 1, n - 1) with the low,
    high and low price. The first fill that fails throws, leaving the fills
    before it done.
  */
  function EconomySeven(s: seq<real>, m: int, e: int, high: real, low: real): (r: (seq<real>, Outcome))
    ensures |r.0| == |s|
  {
    match Filled(s, 0, m, low)
    case Throw(x) => (s, Abrupt(x))
    case Ok(s1) =>
      match Filled(s1, m + 1, e, high)
      case Throw(x) => (s1, Abrupt(x))
      case Ok(s2) =>
        match Filled(s2, e + 1, |s| - 1, low)
        case Throw(x) => (s2, Abrupt(x))
        case Ok(s3) => (s3, Normal)
  }

  /**
    When the three ranges are well formed the tariff is applied without
    throwing: slots before m and from e + 1 to the second-to-last are low, the
    slots strictly between m and e are high, and slots m, e and the last one
    keep the price they had.
  */
  lemma EconomySevenSlots(s: seq<real>, m: int, e: int, high: real, low: real)
    requires 0 <= m && m + 1 <= e && e + 1 <= |s| - 1
    ensures var r := EconomySeven(s, m, e, high, low);
      && r.1 == Normal
      && (forall i | 0 <= i < m :: r.0[i] == low)
      && (forall i | m < i < e :: r.0[i] == high)
      && (forall i | e < i < |s| - 1 :: r.0[i] == low)
      && r.0[m] == s[m] && r.0[e] == s[e] && r.0[|s| - 1] == s[|s| - 1]
  {
    FilledSlots(s, 0, m, low);
    var s1 := Filled(s, 0, m, low).value;
    FilledSlots(s1, m + 1, e, high);
    var s2 := Filled(s1, m + 1, e, high).value;
    FilledSlots(s2, e + 1, |s| - 1, low);
  }

  /**
    The converse of EconomySevenSlots: when one of the three ranges is not well
    formed, one of the fills throws.
  */
  lemma EconomySevenThrowsOutside(s: seq<real>, m: int, e: int, high: real, low: real)
    requires !(0 <= m && m + 1 <= e && e + 1 <= |s| - 1)
    ensures EconomySeven(s, m, e, high, low).1.Abrupt?
  {
  }

  /**
    With half-hourly ticks and a price signal of one day (48 slots) the third
    fill asks for [48, 47) and throws IllegalArgument, after the low and high
    bands are written.
  */
  lemma EconomySevenOneDayThrows(s: seq<real>, high: real, low: real)
    requires |s| == 48
    ensures EconomySeven(s, MorningChangeIndex(48), EveningChangeIndex(48), high, low).1 == Abrupt(IllegalArgument)
  {
    HalfHourlyChangeIndices();
    var s1 := Filled(s, 0, 15, low).value;
    assert Filled(s1, 16, 47, high).Ok?;
  }

  /**
    A price signal of one day with at most 48 ticks a day never gets through
    the fills: with two or more ticks the evening index is the last slot, so the
    third fill asks for [len, len - 1); with fewer the two indices are both 0
    and the second fill asks for [1, 0). Either way Arrays.fill throws
    IllegalArgument.
  */
  lemma EconomySevenShortDayThrows(s: seq<real>, ticksPerDay: nat, high: real, low: real)
    requires ticksPerDay <= 48 && |s| == ticksPerDay
    ensures EconomySeven(s, MorningChangeIndex(ticksPerDay), EveningChangeIndex(ticksPerDay), high, low).1
      == Abrupt(IllegalArgument)
  {
    var m, e := MorningChangeIndex(ticksPerDay), EveningChangeIndex(ticksPerDay);
    if ticksPerDay >= 2 {
      ChangeIndicesOrdered(ticksPerDay);
      assert (ticksPerDay - 1) * 48 <= ticksPerDay * 47;
      assert e == ticksPerDay - 1;
      var s1 := Filled(s, 0, m, low).value;
      assert Filled(s1, m + 1, e, high).Ok?;
    } else {
      assert m == 0 && e == 0;
    }
  }

  /**
    setPriceSignalEconomySeven as intended: slots before m are low, [m, e) is
    high and e to the end is low, with fills whose end index is exclusive.
  */
  function EconomySevenIntended(s: seq<real>, m: int, e: int, high: real, low: real): (r: (seq<real>, Outcome))
    ensures |r.0| == |s|
  {
    match Filled(s, 0, m, low)
    case Throw(x) => (s, Abrupt(x))
    case Ok(s1) =>
      match Filled(s1, m, e, high)
      case Throw(x) => (s1, Abrupt(x))
      case Ok(s2) =>
        match Filled(s2, e, |s|, low)
        case Throw(x) => (s2, Abrupt(x))
        case Ok(s3) => (s3, Normal)
  }

  /** The intended tariff sets every slot, whatever the signal held before, and never throws for ordered indices. */
  lemma EconomySevenIntendedCoversAll(s: seq<real>, m: int, e: int, high: real, low: real)
    requires 0 <= m <= e <= |s|
    ensures var r := EconomySevenIntended(s, m, e, high, low);
      && r.1 == Normal
      && forall i | 0 <= i < |s| :: r.0[i] == if m <= i < e then high else low
  {
    FilledSlots(s, 0, m, low);
    var s1 := Filled(s, 0, m, low).value;
    FilledSlots(s1, m, e, high);
    var s2 := Filled(s1, m, e, high).value;
    FilledSlots(s2, e, |s|, low);
  }

  /**
    The two definitions differ on a two-day half-hourly signal: as written,
    slot 15 (07:30) keeps its old price, where the intended tariff makes it high.
  */
  lemma EconomySevenMissesMorningSlot(s: seq<real>, high: real, low: real)
    requires |s| == 96 && s[15] != high
    ensures EconomySeven(s, MorningChangeIndex(48), EveningChangeIndex(48), high, low).0[15] != high
    ensures EconomySevenIntended(s, MorningChangeIndex(48), EveningChangeIndex(48), high, low).0[15] == high
  {
    HalfHourlyChangeIndices();
    EconomySevenSlots(s, 15, 47, high, low);
    EconomySevenIntendedCoversAll(s, 15, 47, high, low);
  }

  /** A price capped at `cap`. */
  function Capped(price: real, cap: real): (r: real)
    ensures r <= cap && (r == price || r == cap)
    ensures price <= cap ==> r == price
  {
    if price > cap then cap else price
  }

  /**
    setPriceSignalRoscoeAndAult on values: slot i of an n-slot signal is the
    curve's price for the predicted demand of time-of-day slot i % ticksPerDay,
    capped at `cap`. `curve` stands for the demand-to-price map
    d |-> A * exp(B * (d / 10) / margin) + C.
  */
  function RoscoeAndAult(demand: seq<real>, n: nat, curve: real -> real, cap: real): (r: seq<real>)
    requires |demand| > 0
    ensures |r| == n
  {
    seq(n, i requires 0 <= i < n => Capped(curve(demand[i % |demand|]), cap))
  }

  /**
    No slot exceeds the cap, whatever the demand; each slot is the curve's
    price when that is under the cap; and the signal repeats every day.
  */
  lemma RoscoeAndAultShape(demand: seq<real>, n: nat, curve: real -> real, cap: real)
    requires |demand| > 0
    ensures var r := RoscoeAndAult(demand, n, curve, cap);
      && (forall i | 0 <= i < n :: r[i] <= cap)
      && (forall i | 0 <= i < n && curve(demand[i % |demand|]) <= cap :: r[i] == curve(demand[i % |demand|]))
      && (forall i | 0 <= i && i + |demand| < n :: r[i + |demand|] == r[i])
  {
    var r := RoscoeAndAult(demand, n, curve, cap);
    forall i | 0 <= i && i + |demand| < n
      ensures r[i + |demand|] == r[i]
    {
      Modular.ModAddPeriod(i, |demand|);
    }
  }
}

=== FILE: prosumer.dfy ===
/**
  The prosumer side of the price-signal loop: a ProsumerAgent stores the cost
  signal an aggregator pushes to it (receiveValueSignal), realigning it by the
  gap between the tick the signal is declared valid from and the tick it is
  received, and answers the prediction for "now" by modulo indexing
  (getCurrentPrediction).

  The stored prediction is first described as a value (Intake) with pure
  functions for each operation; the class's methods are proved to act on their
  fields exactly as those functions say.
*/
module Prosumer {
  import opened JavaLib
  import AgentNames
  import Modular

  /** agentBaseName of ProsumerAgent. */
  const BaseName: string := "prosumer"

  /**
    The stored prediction of a prosumer: the predicted-cost array (None while it
    is null), the recorded predictedCostSignalLength and predictionValidTime.
  */
  datatype Intake = Intake(buffer: Option<seq<real>>, length: int, validTime: int)

  /** The array, when there is one, is as long as the recorded length says. */
  predicate Consistent(s: Intake)
  {
    s.buffer.Some? ==> |s.buffer.value| == s.length
  }

  /** receiveValueSignal allocates a new array exactly when this holds. */
  predicate Reallocates(s: Intake, newLength: int)
  {
    s.buffer.None? || newLength != s.length
  }

  /**
    The part of receiveValueSignal before the copy: note the valid time, then,
    when the array is null or its recorded length differs from `newLength`,
    record the new length and allocate a zero-filled array of that length
    (which throws NegativeArraySize for a negative length, after the length has
    been recorded).
  */
  function Prepare(s: Intake, validTime: int, newLength: int): (r: (Intake, Outcome))
    ensures r.0.validTime == validTime
    ensures r.1.Normal? ==> r.0.buffer.Some? && r.0.length == newLength
    ensures r.1.Normal? && Consistent(s) ==> Consistent(r.0)
    ensures r.1.Abrupt? <==> Reallocates(s, newLength) && newLength < 0
    ensures !Reallocates(s, newLength) ==> r.0.buffer == s.buffer
    ensures r.1.Normal? && Reallocates(s, newLength) ==> r.0.buffer == Some(seq(newLength, _ => 0.0))
  {
    var noted := s.(validTime := validTime);
    if !Reallocates(s, newLength) then (noted, Normal)
    else if newLength < 0 then (noted.(length := newLength), Abrupt(NegativeArraySize))
    else (noted.(length := newLength, buffer := Some(seq(newLength, _ => 0.0))), Normal)
  }

  /** The System.arraycopy of `count` signal values from `srcPos` into the buffer at `destPos`. */
  function Place(s: Intake, signal: seq<real>, srcPos: int, destPos: int, count: int): (r: (Intake, Result<bool>))
    requires s.buffer.Some?
    ensures r.1.Ok? <==> CopyInBounds(|signal|, srcPos, |s.buffer.value|, destPos, count)
    ensures r.1.Throw? ==> r.0 == s && r.1.exc == IndexOutOfBounds
    ensures r.0.length == s.length && r.0.validTime == s.validTime
    ensures r.0.buffer.Some? && |r.0.buffer.value| == |s.buffer.value|
  {
    match Copied(signal, srcPos, s.buffer.value, destPos, count)
    case Ok(b) => (s.(buffer := Some(b)), Ok(true))
    case Throw(x) => (s, Throw(x))
  }

  /**
    receiveValueSignal(signal, length) as written, with the two clock readings
    passed in: `validTime` (the tick the signal is valid from) and `time` (the
    tick of receipt). Without a smart meter nothing changes. Otherwise, with
    offset = time - validTime, the buffer is prepared for `length - offset`
    values; a negative offset copies the `length` values to index -offset, any
    other offset copies `length` values from signal index `offset` to index 0.
    The method answers true on every path that does not throw.
  */
  function Receive(s: Intake, smartMeter: bool, signal: seq<real>, length: int, validTime: int, time: int)
    : (r: (Intake, Result<bool>))
    ensures r.1.Ok? ==> r.1.value
    ensures !smartMeter ==> r == (s, Ok(true))
    ensures smartMeter ==> r.0.validTime == validTime
  {
    if !smartMeter then (s, Ok(true))
    else
      var offset := time - validTime;
      var prepared := Prepare(s, validTime, length - offset);
      if prepared.1.Abrupt? then (prepared.0, Throw(prepared.1.exc))
      else if offset < 0 then Place(prepared.0, signal, 0, -offset, length)
      else Place(prepared.0, signal, offset, 0, length)
  }

  /**
    getCurrentPrediction at tick `now`: 0 while the recorded length is not
    positive, otherwise the buffer slot (now - validTime) % length with Java's
    remainder; a null buffer or a slot outside the array throws.
  */
  function Predict(s: Intake, now: int): (r: Result<real>)
    ensures s.length <= 0 ==> r == Ok(0.0)
    ensures s.length > 0 && Consistent(s) && s.buffer.Some? && now >= s.validTime ==>
      r == Ok(s.buffer.value[(now - s.validTime) % s.length])
    ensures s.length > 0 && now < s.validTime && Rem(now - s.validTime, s.length) != 0 ==> r.Throw?
  {
    if s.length > 0 then
      if s.buffer.None? then Throw(NullPointer)
      else
        var slot := Rem(now - s.validTime, s.length);
        if 0 <= slot < |s.buffer.value| then Ok(s.buffer.value[slot]) else Throw(IndexOutOfBounds)
    else Ok(0.0)
  }

  /**
    The only case the running system reaches: the signal is valid from the tick
    it is received at (both clock readings are the same tick). The buffer then
    holds exactly the first `length` signal values, its recorded length is
    `length` and it is valid from that tick.
  */
  lemma ReceiveAtCurrentTick(s: Intake, signal: seq<real>, length: int, tick: int)
    requires Consistent(s) && 0 <= length <= |signal|
    ensures Receive(s, true, signal, length, tick, tick) == (Intake(Some(signal[..length]), length, tick), Ok(true))
  {
    var prepared := Prepare(s, tick, length);
    var b := prepared.0.buffer.value;
    assert |b| == length;
    var c := Copied(signal, 0, b, 0, length);
    assert c.Ok?;
    assert c.value == signal[..length];
  }

  /**
    A signal valid from a later tick than its receipt (negative offset): the
    buffer grows to length - offset, the signal lands at [-offset, -offset +
    length), and the slots before it keep their old values only when the
    buffer was not reallocated (a fresh buffer holds zeros there).
  */
  lemma ReceiveFutureSignal(s: Intake, signal: seq<real>, length: int, validTime: int, time: int)
    requires Consistent(s) && time < validTime && 0 <= length <= |signal|
    ensures var shift := validTime - time;
      var r := Receive(s, true, signal, length, validTime, time);
      && r.1 == Ok(true)
      && r.0.length == length + shift && r.0.validTime == validTime
      && r.0.buffer.Some? && |r.0.buffer.value| == length + shift
      && (forall k | shift <= k < length + shift :: r.0.buffer.value[k] == signal[k - shift])
      && (forall k | 0 <= k < shift ::
            r.0.buffer.value[k] == if Reallocates(s, length + shift) then 0.0 else s.buffer.value[k])
  {
    var shift := validTime - time;
    var prepared := Prepare(s, validTime, length + shift);
    assert prepared.1.Normal?;
    assert Copied(signal, 0, prepared.0.buffer.value, shift, length).Ok?;
  }

  /**
    A signal received after the tick it is valid from (positive offset): the
    buffer is sized length - offset but `length` values are copied into it, so
    the call always throws; the copy fits only when the offset is 0.
  */
  lemma ReceivePastSignalOverruns(s: Intake, signal: seq<real>, length: int, validTime: int, time: int)
    requires Consistent(s) && time > validTime
    ensures Receive(s, true, signal, length, validTime, time).1.Throw?
  {
    var offset := time - validTime;
    var prepared := Prepare(s, validTime, length - offset);
    if prepared.1.Normal? {
      assert |prepared.0.buffer.value| == length - offset;
      assert !CopyInBounds(|signal|, offset, |prepared.0.buffer.value|, 0, length);
    }
  }

  /** Receiving the same signal again at the same ticks leaves the state the first receipt left. */
  lemma ReceiveIdempotent(s: Intake, smartMeter: bool, signal: seq<real>, length: int, validTime: int, time: int)
    requires Receive(s, smartMeter, signal, length, validTime, time).1.Ok?
    ensures var once := Receive(s, smartMeter, signal, length, validTime, time);
      Receive(once.0, smartMeter, signal, length, validTime, time) == once
  {
    if smartMeter {
      var offset := time - validTime;
      var first := Prepare(s, validTime, length - offset);
      var once := Receive(s, smartMeter, signal, length, validTime, time);
      var again := Prepare(once.0, validTime, length - offset);
      assert !Reallocates(once.0, length - offset);
      assert again.0 == once.0;
      if offset < 0 {
        CopiedTwice(signal, 0, first.0.buffer.value, -offset, length);
      } else {
        CopiedTwice(signal, offset, first.0.buffer.value, 0, length);
      }
    }
  }

  /**
    After a full-length signal is received at tick t, the prediction for tick
    t + k is the signal's value at k, wrapping around the signal's length.
  */
  lemma PredictAfterReceive(s: Intake, signal: seq<real>, tick: int, k: nat)
    requires Consistent(s) && |signal| > 0
    ensures Predict(Receive(s, true, signal, |signal|, tick, tick).0, tick + k) == Ok(signal[k % |signal|])
  {
    ReceiveAtCurrentTick(s, signal, |signal|, tick);
    assert signal[..|signal|] == signal;
  }

  /**
    receiveValueSignal with its offsets corrected. Slot 0 of the stored buffer
    stands for the tick of receipt in both branches, so that tick (not the
    declared valid time) is recorded as the valid time; and a signal received
    `offset` ticks late copies only its length - offset unexpired values.
    The comment's "wrap the front bits round to the end of the array" is not
    part of this correction: the elapsed values are dropped.
  */
  function ReceiveIntended(s: Intake, smartMeter: bool, signal: seq<real>, length: int, validTime: int, time: int)
    : (r: (Intake, Result<bool>))
    ensures r.1.Ok? ==> r.1.value
    ensures !smartMeter ==> r == (s, Ok(true))
    ensures smartMeter ==> r.0.validTime == time
  {
    if !smartMeter then (s, Ok(true))
    else
      var offset := time - validTime;
      var prepared := Prepare(s, time, length - offset);
      if prepared.1.Abrupt? then (prepared.0, Throw(prepared.1.exc))
      else if offset < 0 then Place(prepared.0, signal, 0, -offset, length)
      else Place(prepared.0, signal, offset, 0, length - offset)
  }

  /**
    With the corrected intake, a signal received `offset` ticks late keeps
    exactly its unexpired values, valid from the tick of receipt.
  */
  lemma ReceiveIntendedDropsElapsed(s: Intake, signal: seq<real>, length: int, validTime: int, time: int)
    requires Consistent(s) && 0 <= time - validTime <= length <= |signal|
    ensures ReceiveIntended(s, true, signal, length, validTime, time)
      == (Intake(Some(signal[time - validTime..length]), length - (time - validTime), time), Ok(true))
  {
    var offset := time - validTime;
    var prepared := Prepare(s, time, length - offset);
    var c := Copied(signal, offset, prepared.0.buffer.value, 0, length - offset);
    assert c.Ok?;
    assert c.value == signal[offset..length];
  }

  /**
    The corrected intake predicts the signal itself: for every tick
    validTime + j that the signal covers and that has not yet elapsed at
    receipt, the prediction is signal[j], whether the signal arrived early,
    on time or late.
  */
  lemma ReceiveIntendedPredictsSignal(s: Intake, signal: seq<real>, length: int, validTime: int, time: int)
    requires Consistent(s) && 0 <= length <= |signal| && time - validTime < length
    ensures var r := ReceiveIntended(s, true, signal, length, validTime, time);
      && r.1 == Ok(true)
      && forall j | 0 <= j < length && time - validTime <= j :: Predict(r.0, validTime + j) == Ok(signal[j])
  {
    var offset := time - validTime;
    var n := length - offset;
    var prepared := Prepare(s, time, n);
    assert prepared.1.Normal? && |prepared.0.buffer.value| == n;
    var r := ReceiveIntended(s, true, signal, length, validTime, time);
    if offset < 0 {
      assert Copied(signal, 0, prepared.0.buffer.value, -offset, length).Ok?;
    } else {
      assert Copied(signal, offset, prepared.0.buffer.value, 0, n).Ok?;
    }
    assert r.0.buffer.Some? && |r.0.buffer.value| == n && r.0.length == n && r.0.validTime == time;
    forall j | 0 <= j < length && offset <= j
      ensures Predict(r.0, validTime + j) == Ok(signal[j])
    {
      Modular.ModUnique(j - offset, n, 0, j - offset);
      assert r.0.buffer.value[j - offset] == signal[j];
    }
  }

  /** Both definitions agree on every signal received at the tick it is valid from. */
  lemma ReceiveIntendedAgreesAtCurrentTick(s: Intake, smartMeter: bool, signal: seq<real>, length: int, tick: int)
    ensures ReceiveIntended(s, smartMeter, signal, length, tick, tick) == Receive(s, smartMeter, signal, length, tick, tick)
  {
  }

  /**
    The literal case: ten values valid from tick 100, received at tick 103.
    The code throws; the corrected intake keeps the last seven, valid from 103.
  */
  lemma ReceiveThreeTicksLate()
    ensures var signal := [1.0, 2.0, 3.0, 4.0, 5.0, 6.0, 7.0, 8.0, 9.0, 10.0];
      && Receive(Intake(None, 0, 0), true, signal, 10, 100, 103).1 == Throw(IndexOutOfBounds)
      && ReceiveIntended(Intake(None, 0, 0), true, signal, 10, 100, 103)
         == (Intake(Some([4.0, 5.0, 6.0, 7.0, 8.0, 9.0, 10.0]), 7, 103), Ok(true))
  {
    var signal := [1.0, 2.0, 3.0, 4.0, 5.0, 6.0, 7.0, 8.0, 9.0, 10.0];
    ReceiveIntendedDropsElapsed(Intake(None, 0, 0), signal, 10, 100, 103);
    assert signal[3..10] == [4.0, 5.0, 6.0, 7.0, 8.0, 9.0, 10.0];
  }

  /**
    The literal case the other way: ten values valid from tick 100, received
    at tick 97, land at indices 3 to 12 of a fresh thirteen-slot buffer.
  */
  lemma ReceiveThreeTicksEarly()
    ensures var signal := [1.0, 2.0, 3.0, 4.0, 5.0, 6.0, 7.0, 8.0, 9.0, 10.0];
      Receive(Intake(None, 0, 0), true, signal, 10, 100, 97)
      == (Intake(Some([0.0, 0.0, 0.0] + signal), 13, 100), Ok(true))
  {
    var signal := [1.0, 2.0, 3.0, 4.0, 5.0, 6.0, 7.0, 8.0, 9.0, 10.0];
    ReceiveFutureSignal(Intake(None, 0, 0), signal, 10, 100, 97);
    var r := Receive(Intake(None, 0, 0), true, signal, 10, 100, 97);
    assert r.0.buffer.value == [0.0, 0.0, 0.0] + signal;
  }

  /**
    Since the code records the declared valid time while slot 0 stands for
    the tick of receipt, an early signal is read three slots off: at tick
    100, the tick it is valid from, the prediction is the padding 0 and not
    the signal's first value 1; at tick 98, between receipt and validity,
    the Java remainder is negative and the read throws.
  */
  lemma ReceiveEarlyPredictsPadding()
    ensures var signal := [1.0, 2.0, 3.0, 4.0, 5.0, 6.0, 7.0, 8.0, 9.0, 10.0];
      var r := Receive(Intake(None, 0, 0), true, signal, 10, 100, 97);
      && Predict(r.0, 100) == Ok(0.0)
      && Predict(r.0, 98) == Throw(IndexOutOfBounds)
      && Predict(ReceiveIntended(Intake(None, 0, 0), true, signal, 10, 100, 97).0, 100) == Ok(1.0)
  {
    var signal := [1.0, 2.0, 3.0, 4.0, 5.0, 6.0, 7.0, 8.0, 9.0, 10.0];
    ReceiveThreeTicksEarly();
    var stored := Intake(Some([0.0, 0.0, 0.0] + signal), 13, 100);
    assert Rem(0, 13) == 0 && Rem(-2, 13) == -2;
    assert Predict(stored, 100) == Ok(0.0);
    assert Predict(stored, 98) == Throw(IndexOutOfBounds);
    ReceiveIntendedPredictsSignal(Intake(None, 0, 0), signal, 10, 100, 97);
  }

  /** Stand-in for the static agentIDCounter: hands out 0, 1, 2, ... in construction order. */
  class IdAllocator {
    var next: int

    constructor ()
      ensures next == 0
    {
      next := 0;
    }
  }

  /**
    A ProsumerAgent, reduced to the state the signal loop touches. Concrete
    prosumers (households, generators) set `hasSmartMeter` when they are built
    and overwrite `netDemand` in their own step.
  */
  class ProsumerAgent {
    const agentID: int
    var agentName: Option<string>
    var nameExplicitlySet: bool
    const hasSmartMeter: bool
    var netDemand: real
    var predictedCostSignal: array?<real>
    var predictedCostSignalLength: int
    var predictionValidTime: int

    /** The stored prediction as a value. */
    function IntakeOf(): Intake
      reads this, predictedCostSignal
    {
      Intake(if predictedCostSignal == null then None else Some(predictedCostSignal[..]),
             predictedCostSignalLength, predictionValidTime)
    }

    /** The name getAgentName reports. */
    function ShownName(): Option<string>
      reads this
    {
      AgentNames.Shown(agentName, nameExplicitlySet, BaseName)
    }

    /**
      ProsumerAgent(context): takes the next ID from the allocator; every other
      field keeps Java's default (no name, null buffer, zero lengths and demand).
    */
    constructor (ids: IdAllocator, smartMeter: bool)
      modifies ids
      ensures agentID == old(ids.next) && ids.next == old(ids.next) + 1
      ensures hasSmartMeter == smartMeter && netDemand == 0.0
      ensures ShownName() == Some(BaseName) && !nameExplicitlySet
      ensures predictedCostSignal == null && IntakeOf() == Intake(None, 0, 0)
    {
      agentID := ids.next;
      hasSmartMeter := smartMeter;
      agentName := None;
      nameExplicitlySet := false;
      netDemand := 0.0;
      predictedCostSignal := null;
      predictedCostSignalLength := 0;
      predictionValidTime := 0;
      new;
      ids.next := ids.next + 1;
    }

    /** getAgentName: reports the shown name, caching the base name in the field the first time. */
    method GetAgentName() returns (name: Option<string>)
      modifies this`agentName
      ensures name == old(ShownName()) && ShownName() == old(ShownName())
      ensures agentName == name
    {
      if agentName.None? && !nameExplicitlySet {
        agentName := Some(BaseName);
      }
      name := agentName;
    }

    /** setAgentName: from now on exactly `name` is shown, even a null one. */
    method SetAgentName(name: Option<string>)
      modifies this`agentName, this`nameExplicitlySet
      ensures ShownName() == name && nameExplicitlySet
    {
      agentName := name;
      nameExplicitlySet := true;
    }

    /** setNetDemand. */
    method SetNetDemand(nd: real)
      modifies this`netDemand
      ensures netDemand == nd
    {
      netDemand := nd;
    }

    /** setPredictedCostSignalLength: the only way the recorded length can disagree with the array. */
    method SetPredictedCostSignalLength(length: int)
      modifies this`predictedCostSignalLength
      ensures IntakeOf() == old(IntakeOf()).(length := length)
    {
      predictedCostSignalLength := length;
    }

    /** setPredictionValidTime. */
    method SetPredictionValidTime(validTime: int)
      modifies this`predictionValidTime
      ensures IntakeOf() == old(IntakeOf()).(validTime := validTime)
    {
      predictionValidTime := validTime;
    }

    /**
      getCurrentPrediction, with the tick count passed in as `now`: 0 while
      the recorded length is not positive, otherwise the buffer slot the
      ticks since the valid time fall in.
    */
    function GetCurrentPrediction(now: int): (r: Result<real>)
      reads this, predictedCostSignal
      ensures predictedCostSignalLength <= 0 ==> r == Ok(0.0)
      ensures predictedCostSignalLength > 0 && predictedCostSignal == null ==> r == Throw(NullPointer)
      ensures && predictedCostSignalLength > 0 && predictedCostSignal != null
              && predictedCostSignal.Length == predictedCostSignalLength && now >= predictionValidTime
              ==> r == Ok(predictedCostSignal[(now - predictionValidTime) % predictedCostSignalLength])
    {
      Predict(IntakeOf(), now)
    }

    /**
      receiveValueSignal(signal, length), with the two readings of the tick
      count passed in as `validTime` and `time`. The stored prediction changes
      exactly as Receive says; the array is replaced by a fresh one exactly when
      Receive reallocates, and otherwise overwritten in place.
    */
    method ReceiveValueSignal(signal: array<real>, length: int, validTime: int, time: int) returns (r: Result<bool>)
      modifies this`predictedCostSignal, this`predictedCostSignalLength, this`predictionValidTime, predictedCostSignal
      ensures (IntakeOf(), r) == Receive(old(IntakeOf()), hasSmartMeter, old(signal[..]), length, validTime, time)
      ensures predictedCostSignal != old(predictedCostSignal) <==>
        hasSmartMeter && Reallocates(old(IntakeOf()), length - (time - validTime)) && length - (time - validTime) >= 0
      ensures predictedCostSignal != old(predictedCostSignal) ==> fresh(predictedCostSignal)
    {
      var success := true;
      ghost var before := IntakeOf();
      ghost var sig := signal[..];
      if hasSmartMeter {
        var newSignalLength := length;
        predictionValidTime := validTime;
        var signalOffset := time - validTime;
        if signalOffset != 0 {
          newSignalLength := newSignalLength - signalOffset;
        }
        if predictedCostSignal == null || newSignalLength != predictedCostSignalLength {
          predictedCostSignalLength := newSignalLength;
          if newSignalLength < 0 {
            return Throw(NegativeArraySize);
          }
          predictedCostSignal := new real[newSignalLength](_ => 0.0);
          assert predictedCostSignal[..] == seq(newSignalLength, _ => 0.0);
        }
        assert IntakeOf() == Prepare(before, validTime, length - signalOffset).0;
        var copied;
        if signalOffset < 0 {
          copied := ArrayCopy(signal, 0, predictedCostSignal, 0 - signalOffset, length);
        } else {
          copied := ArrayCopy(signal, signalOffset, predictedCostSignal, 0, length);
        }
        if copied.Abrupt? {
          return Throw(copied.exc);
        }
      }
      return Ok(success);
    }
  }
}
